=== FILE: README.md ===
# weblab4front core, modelled in Dafny

This project models the logic under the React/PIXI shell of the weblab4front
dashboard. The dashboard lets a user test points against a region: they pick
X, Y and R in a form, or click on a graph, and it shows the tested hits on the
graph and in a sortable, paginated history table. The model covers these parts:

- **Graph coordinate engine** (`graph_units.dfy`, module `GraphUnits`).
  - The pseudo-radius: R, or 1 while R is unset.
  - The scale `min(w, h) / (3 · pseudoR)` pixels per unit.
  - The unit↔pixel converters for lengths and for points. Pixels grow down and units grow up, so y is negated.
  - The client→pixel translation.
- **Click and drag handling** (`graph_interaction.dfy`, module `GraphInteraction`).
  - Click routing: nothing happens, the "no R" signal fires, or `onClick` gets the unit point.
  - The drag-preview state machine.
- **What the graph draws** (`graph_drawing.dfy`, module `GraphDrawing`), as symbolic draw commands:
  - the region outline and the axes;
  - the four R tick marks;
  - hit colours against the mount time;
  - the placement of the drag-preview label.
- **Label placement** (`graph_label.dfy`, module `GraphLabel`).
  - The eight-way quadrant classifier.
  - Its offset table.
- **Dashboard state** (`dashboard_store.dfy`, `dashboard_form.dfy`, `dashboard_page.dfy`).
  - The X / Y / R store slice.
  - The form's validation, submit sequence, R synchronisation and submit button.
  - The page's filter of hits by R.
  - The page's routing of graph clicks and form submits to the create request.
- **History table** (`hit_history.dfy`, `paginator.dfy`).
  - The sort comparator and the sort-header state.
  - The page slice (20 rows) and the page count.
  - The paginator: its clamp effect, its Prev/Next/item controls and the active item.
- **Error text** (`query_error.dfy`, module `QueryError`).
  - `rtkQueryHookErrorToString`.

Numbers are exact reals, not IEEE doubles, and timestamps are integers. A
`number | null` is an `Option<real>` (`common.dfy`). JavaScript's truthiness
of R, under which both null and 0 are falsy, is `Optional.Truthy`.

On these points the model follows the code:

- **Pixel y direction.** The pixel space of the code has y pointing down:
  - `unitsPointToPxPoint` negates y;
  - the drawing container is translated to the canvas centre with no flip.
- **Shape orientation.** Read back in units, the drawn outline has:
  - the quarter disc in the upper-right quadrant;
  - the rectangle below the positive x axis;
  - the triangle in the lower-left quadrant.

  This is what `ShapeIsRegionInUnits` proves.
- **R is not clamped.** R = 0 and negative R reach the graph, since the form accepts R in [-5, 3].
  - A negative R makes the scale negative. The pseudo-radius in pixels is still a third of the shorter side (`PseudoRPx`), so the shape, the axes and the tick positions stay where they are (`ShapeIsRegionInUnits`, `MarksAtFixedPixels`).
  - What a negative R does reflect through the centre is the hit markers (`UnitsPointToPxPointSign`) and which numeric caption sits on which tick: the value -R, which is then positive, sits on the left tick.
  - R = 0 makes the scale infinite on a measured canvas. A click without `onClickNoR` then calls `onClick` with the origin (`GraphInteraction.OnClick`).
- **Y validation.** The Y field is "not required", but an empty Y fails the "is a number" test in this model: the form turns it into `None`.

## Model

| member | source | states |
|---|---|---|
| GraphUnits.PseudoR | src/modules/hits/components/Graph/Graph.tsx:75-77 | 1 when R is null, R itself otherwise; it is 0 exactly when R is 0 (R is not clamped) |
| GraphUnits.PxPerUnit | src/modules/hits/components/Graph/Graph.tsx:80-81 | the scale times three pseudo-radii is the canvas' shorter side |
| GraphUnits.PxPerUnitSign | src/modules/hits/components/Graph/Graph.tsx:80-81 | the scale is 0 exactly on an unmeasured canvas; on a measured one it is positive exactly when the pseudo-radius is |
| GraphUnits.UnitsToPx | src/modules/hits/components/Graph/Graph.tsx:78-85 | every length maps to 0 pixels while the canvas has a zero side; otherwise px·3·pseudoR = u·min(w, h) |
| GraphUnits.UnitsToPxSign | src/modules/hits/components/Graph/Graph.tsx:78-85 | a positive scale keeps the sign of a length, a negative one flips it |
| GraphUnits.PxToUnits | src/modules/hits/components/Graph/Graph.tsx:96-103 | converting its result back to pixels gives the input pixels |
| GraphUnits.UnitsToPxToUnits | src/modules/hits/components/Graph/Graph.tsx:78-103 | pixels→units undoes units→pixels on a measured canvas |
| GraphUnits.UnitsPointToPxPoint | src/modules/hits/components/Graph/Graph.tsx:86-94 | an unmeasured canvas sends every point to the origin; x scales and y scales with its sign flipped |
| GraphUnits.UnitsPointToPxPointSign | src/modules/hits/components/Graph/Graph.tsx:86-94 | with a positive scale x keeps its sign and y changes it; with a negative one (negative R) it is the other way round |
| GraphUnits.PxPointToUnitsPoint | src/modules/hits/components/Graph/Graph.tsx:104-112 | it is a right inverse of the units→pixels point conversion |
| GraphUnits.UnitsPointRoundTrip | src/modules/hits/components/Graph/Graph.tsx:86-112 | it is also a left inverse: units→pixels→units is the identity |
| GraphUnits.PseudoRPx | src/modules/hits/components/Graph/Graph.tsx:114 | the pseudo-radius in pixels is a third of the shorter side, whatever non-zero R is |
| GraphUnits.ScaleDecreasesWithRadius | src/modules/hits/components/Graph/Graph.tsx:78-85 | for positive radii a larger R gives fewer pixels per unit |
| GraphUnits.ClientPointToPxPoint | src/modules/hits/components/Graph/Graph.tsx:116-130 | the origin when the canvas has no bounding rect; otherwise the pixel point that maps back to the client point |
| GraphUnits.ClientPointRoundTrip | src/modules/hits/components/Graph/Graph.tsx:116-130 | client→pixel undoes pixel→client |
| GraphUnits.ScenarioUnitsToPixels | src/modules/hits/components/Graph/Graph.tsx:78-94 | on a 300×300 canvas with R = 3 the unit point (1, 1) is drawn at (100/3, -100/3) |
| GraphUnits.ScenarioClientToUnits | src/modules/hits/components/Graph/Graph.tsx:96-130 | a click at client (160, 140) on a canvas at (10, 10) is pixel (0, -20) and unit point (0, 0.6) |
| GraphInteraction.OnClick | src/modules/hits/components/Graph/Graph.tsx:160-172 | ignored exactly without `onClick` or a mounted canvas; "no R" exactly when R is falsy and `onClickNoR` exists; otherwise `onClick` gets the unit point that maps back to the click, the origin when R is 0, or non-finite values when the canvas is unmeasured |
| GraphInteraction.ZeroRClickSubmitsOrigin | src/modules/hits/components/Graph/Graph.tsx:80-81 | with R = 0 and no `onClickNoR`, a click on a measured 300×300 canvas calls `onClick` with the origin |
| GraphInteraction.ClickWithRSubmits | src/modules/hits/components/Graph/Graph.tsx:160-172 | with both callbacks, a truthy R and a measured, mounted canvas, a click always submits |
| GraphInteraction.Step | src/modules/hits/components/Graph/Graph.tsx:285-309 | up and leave end the drag; a drag starts only from idle, on a mounted canvas with R truthy, at the mouse-down point; a move only updates an existing drag |
| GraphInteraction.DragExclusive | src/modules/hits/components/Graph/Graph.tsx:287 | a second mouse-down during a drag keeps the first anchor |
| GraphInteraction.NoDragWithoutR | src/modules/hits/components/Graph/Graph.tsx:285-291 | if R is falsy at every mouse-down, no drag ever starts, whatever the event sequence |
| GraphInteraction.AnchorIsLastPosition | src/modules/hits/components/Graph/Graph.tsx:285-309 | a shown preview sits where the last mouse-move, or the mouse-down that started the drag, put it; every later event is a mouse-down, which the drag ignores |
| GraphLabel.ConvenientPosition | src/modules/hits/components/Graph/utils.ts:16-35 | each of the eight positions is chosen exactly for its quadrant or half-axis; the origin gives top-right |
| GraphLabel.ConvenientPositionFollowsSigns | src/modules/hits/components/Graph/utils.ts:16-35 | away from the origin, the compass components of the position are the signs of x and y, and it is a corner exactly off the axes |
| GraphLabel.LabelPositionToOffset | src/modules/hits/components/Graph/utils.ts:37-62 | each offset is the compass component times the offset, with north as negative screen y |
| GraphLabel.OffsetShape | src/modules/hits/components/Graph/utils.ts:44-61 | edge positions move along exactly one axis, corners along both, always by ±offset |
| GraphLabel.OffsetPointsAwayFromOrigin | src/modules/hits/components/Graph/utils.ts:16-62 | away from the origin, the x offset has the sign of x and the screen y offset the opposite sign of y |
| GraphLabel.ScenarioTopLeft | src/modules/hits/components/Graph/utils.ts:19-20 | (-1, 2) is top-left, with offset (-10, -10) for 10 pixels |
| GraphDrawing.ShapeIsRegionInUnits | src/modules/hits/components/Graph/Graph.tsx:208-231 | the outline drawn at `pseudoRPx`, read back in units, is exactly the region scaled by the pseudo-radius |
| GraphDrawing.GridCommands | src/modules/hits/components/Graph/Graph.tsx:195-206 | the two axes pass through the centre, symmetric about it, spanning 80% of the width and of the height |
| GraphDrawing.RMarks | src/modules/hits/components/Graph/Graph.tsx:150-158 | four marks at -R, -R/2, R/2, R, symmetric about 0; symbolic captions exactly while R is unset, and otherwise each caption is the mark's value |
| GraphDrawing.MarksAtFixedPixels | src/modules/hits/components/Graph/Graph.tsx:150-158 | the marks sit at -1/3, -1/6, 1/6 and 1/3 of the shorter side in pixels, whatever R is |
| GraphDrawing.MarkGlyphAt | src/modules/hits/components/Graph/Graph.tsx:233-277 | the tick is centred on the mark's pixel point, 20 pixels long across its axis, with the caption beyond it |
| GraphDrawing.MarkGlyphs | src/modules/hits/components/Graph/Graph.tsx:348-365 | each mark is drawn twice with its own caption: a vertical tick centred on the x axis at the mark's pixel position, then a horizontal tick centred on the y axis at the opposite pixel y (y down) |
| GraphDrawing.HitPointColor | src/modules/hits/components/Graph/Graph.tsx:133-149 | bright exactly when created strictly after the mount time; green exactly for a hit |
| GraphDrawing.RenderPoints | src/modules/hits/components/Graph/Graph.tsx:133-193 | one marker per hit, in order, with its id and colour; on a measured canvas the marker reads back to the hit's X and Y |
| GraphDrawing.PreviewLabelAwayFromOrigin | src/modules/hits/components/Graph/Graph.tsx:379-405 | the preview label is pushed away from the centre on each axis the anchor is off; at the centre it goes up and right |
| DashboardStore.Reduce | src/store/dashboard.reducer.ts:19-27 | each action sets its own field to the payload and leaves the other two unchanged |
| DashboardStore.ReduceIdempotent | src/store/dashboard.reducer.ts:19-27 | applying an action twice is applying it once |
| DashboardStore.ReduceCommutes | src/store/dashboard.reducer.ts:19-27 | actions on different fields commute |
| DashboardStore.ReduceAllLastWriteWins | src/store/dashboard.reducer.ts:3-27 | after any sequence of actions, each field holds the last payload written to it, or its start value |
| DashboardForm.XError | src/modules/hits/components/Dashboard/DashboardForm.tsx:28-31 | X is valid exactly when present and in [-5, 3]; a missing X is "X is required" |
| DashboardForm.YError | src/modules/hits/components/Dashboard/DashboardForm.tsx:32-41 | Y is valid exactly when it is a number in [-3, 3] |
| DashboardForm.RError | src/modules/hits/components/Dashboard/DashboardForm.tsx:42-45 | R is valid exactly when present and in [-5, 3], so 0 and negative R pass |
| DashboardForm.HandleSubmit | src/modules/hits/components/Dashboard/DashboardForm.tsx:47-64 | an invalid form changes nothing; a valid one forwards (x, y, r) once, leaves the store with X and Y cleared and R set, and resets the form to X and Y empty with R kept |
| DashboardForm.StoreWhenForwarded | src/modules/hits/components/Dashboard/DashboardForm.tsx:49-53 | when the hit is forwarded, the store holds all three submitted values |
| DashboardForm.StoreAfterSubmit | src/modules/hits/components/Dashboard/DashboardForm.tsx:49-56 | after the five dispatches X and Y are null and R is the submitted one, whatever the store held before |
| DashboardForm.DisabledAfterSubmit | src/modules/hits/components/Dashboard/DashboardForm.tsx:57-133 | right after a submit the button is disabled, because the reset form is not dirty |
| DashboardForm.SyncR | src/modules/hits/components/Dashboard/DashboardForm.tsx:68-73 | only R changes, never while validating; once validation settles, a valid R is copied; a changed R is always a valid field value |
| DashboardForm.SessionKeepsRanges | src/modules/hits/components/Dashboard/DashboardForm.tsx:27-73 | over any sequence of typing, submits and effect runs, the store's R stays unset or in [-5, 3], and every forwarded hit is within the form's ranges |
| DashboardPage.FilterByR | src/modules/hits/pages/Dashboard.tsx:62 | exactly the hits with the store's R, each as often as in the input, in input order |
| DashboardPage.GraphHits | src/modules/hits/pages/Dashboard.tsx:62 | the graph gets nothing while hits are not loaded or R is unset; otherwise exactly the loaded hits with that R, each as often as loaded, as an ordered sub-list |
| DashboardPage.OnGraphClick | src/modules/hits/pages/Dashboard.tsx:65-69 | with R falsy a click raises exactly "r is not specified" (on a mounted canvas) and creates nothing; a create carries the store's R and the unit point of the click; with R truthy on a measured canvas a click creates |
| DashboardPage.OnFormSubmit | src/modules/hits/pages/Dashboard.tsx:73 | the submit is `HandleSubmit`'s; a valid form creates exactly one hit with its own (x, y, r), an invalid one creates nothing, and every created hit is within the form's ranges |
| HitHistory.Compare | src/modules/hits/components/Dashboard/HitHistory.tsx:19-23 | 0 exactly for equal keys; non-positive exactly when the first hit may precede the second in the requested direction |
| HitHistory.CompareAntisymmetric | src/modules/hits/components/Dashboard/HitHistory.tsx:19-23 | swapping the arguments negates the comparison |
| HitHistory.Insert | src/modules/hits/components/Dashboard/HitHistory.tsx:19-23 | inserting into a sorted list keeps it sorted and adds exactly the one hit |
| HitHistory.SortBy | src/modules/hits/components/Dashboard/HitHistory.tsx:19-23 | the result is sorted by the comparator and is a permutation of the input |
| HitHistory.SortedHits | src/modules/hits/components/Dashboard/HitHistory.tsx:17-24 | without a key the input order; otherwise a permutation of the hits, ascending by the key for 1 and descending for -1, with hits of equal key in input order |
| HitHistory.InsertKeepsTies | src/modules/hits/components/Dashboard/HitHistory.tsx:19-23 | an inserted hit goes before every hit with its key, and the hits of every other key keep their order |
| HitHistory.SortByIsStable | src/modules/hits/components/Dashboard/HitHistory.tsx:19-23 | for every key value, the hits with that value appear in the sorted list in their input order |
| HitHistory.ClickHeader | src/modules/hits/components/Dashboard/HitHistory.tsx:33-40 | the clicked column becomes the key; the direction flips on the current column and is 1 on another |
| HitHistory.ClickHeaderTwice | src/modules/hits/components/Dashboard/HitHistory.tsx:33-40 | two clicks on the current column restore the state; two on another sort by it descending |
| HitHistory.Indicator | src/modules/hits/components/Dashboard/HitHistory.tsx:43-44 | ▲ exactly on the current key with direction 1, ▼ exactly with -1 |
| HitHistory.OneArrow | src/modules/hits/components/Dashboard/HitHistory.tsx:43-44 | at most one header shows an arrow, and after a click the clicked one does |
| HitHistory.TotalPages | src/modules/hits/components/Dashboard/HitHistory.tsx:56 | the least number of 20-row pages that holds n rows |
| HitHistory.PageRows | src/modules/hits/components/Dashboard/HitHistory.tsx:71-72 | page p ≥ 1 shows rows [(p-1)·20, p·20) clipped to the list, at most 20; page 0 shows none |
| HitHistory.PagesArePrefix | src/modules/hits/components/Dashboard/HitHistory.tsx:71-72 | pages 1 to p together are the first p·20 rows |
| HitHistory.PagesPartitionRows | src/modules/hits/components/Dashboard/HitHistory.tsx:56-72 | pages 1 to totalPages show every row exactly once, in order |
| HitHistory.View | src/modules/hits/components/Dashboard/HitHistory.tsx:49-97 | an empty history shows only the "history empty" row and no paginator; otherwise the paginator counts ceil(n/20) pages, the body is one row per hit of the current page of the sorted hits (at most 20), and a page in range is never blank |
| HitHistory.FirstRenderInArrivalOrder | src/modules/hits/components/Dashboard/HitHistory.tsx:13-18 | with the initial state (page 1, no sort key) the table lists the first min(20, n) hits in arrival order, or the "history empty" row |
| Paginator.ClampPage | src/modules/common/components/Paginator.tsx:12-14 | the clamp only lowers the page, to the page count when the page is beyond it |
| Paginator.Items | src/modules/common/components/Paginator.tsx:21-29 | totalPages items numbered 1 to totalPages in order, each active exactly when it is the current page |
| Paginator.ExactlyOneActive | src/modules/common/components/Paginator.tsx:24 | exactly one item is active when the page is in range, none otherwise |
| Paginator.Press | src/modules/common/components/Paginator.tsx:17-32 | Prev fires exactly when the page is not 1 and goes back one; Next fires exactly when it is not the last and goes forward one; an item goes to its number |
| Paginator.PressStaysInRange | src/modules/common/components/Paginator.tsx:17-32 | from a page in range every enabled control leads to a page in range |
| Paginator.PageStaysPositive | src/modules/common/components/Paginator.tsx:12-32 | over any clicks and renders of a non-empty history the page stays at least 1, and after a render it is at most the page count |
| QueryError.ErrorToString | src/modules/common/utils/rtkQueryHookErrorToString.ts:7-17 | with a status, "Error " then the status and ending with the body text; otherwise "Error: " and the message; otherwise "unknown error" |
| QueryError.BranchIsReadable | src/modules/common/utils/rtkQueryHookErrorToString.ts:7-17 | the branch taken, status winning over message, and a message-only error's message can be read back from the text |
| QueryError.StatusCodeIsReadable | src/modules/common/utils/rtkQueryHookErrorToString.ts:7-11 | every numeric status, negative ones included, parses back from the text (digits after an optional '-', up to the ':') |
| QueryError.StatusAndDataAreReadable | src/modules/common/utils/rtkQueryHookErrorToString.ts:7-13 | the text is "Error ", the status, ": " and the body: both the status text and the body are read back whenever the status text has no ':' |
| QueryError.CodeTextHasNoColon | src/modules/common/utils/rtkQueryHookErrorToString.ts:7-9 | a numeric status, negative ones included, is written without ':', so the read-back covers every numeric status |
| QueryError.ScenarioFetchError | src/modules/common/utils/rtkQueryHookErrorToString.ts:7-13 | a `FETCH_ERROR` with the body "offline" reads "Error FETCH_ERROR: offline" |
| QueryError.ParseNatToString | src/modules/common/utils/rtkQueryHookErrorToString.ts:7 | the decimal text of a status code parses back to the code |

## Left out

- The ResizeObserver subscription (Graph.tsx:52-66). The canvas extent is a parameter (`Extent`) instead.
- PIXI and React rendering: `Stage`, `Graphics` and `Text` objects, hooks and re-render timing, and the `console.log`. The shape, axes, tick marks, points and preview label are symbolic draw commands or positions, and arc angles stay symbolic.
- The marker circle (radius 3) and the preview circle. They are fixed drawings at a point, and only their position and colour are modelled.
- JavaScript doubles: there is no rounding, NaN or Infinity.
  - The converters require a non-zero pseudo-radius, and `PxToUnits` also requires a measured canvas.
  - A click on a canvas that is not measured yet calls `onClick` with non-finite numbers. The model has the outcome `SubmitNonFinite` for it, without the values.
  - A click with R = 0 on a measured canvas yields ±0 in JavaScript. The model gives 0, which loses the sign of zero.
- GraphUnits.UnitsToPx: the sign behaviour is stated in the separate lemma `UnitsToPxSign`, not in the function's own contract.
- GraphUnits.UnitsPointToPxPoint: the sign behaviour is stated in the separate lemma `UnitsPointToPxPointSign`, not in the function's own contract.
- The browser's ordering of mousedown, mouseup and click events. The click handler and the drag handlers are modelled independently, as the code handles them.
- Formik and Yup: touched and blur state, asynchronous validation timing, and `Number()` parsing of the text fields.
  - Each field is the parsed `Option<real>`, and `None` stands for both an empty field and text that is not a number.
  - `isValidating` is a parameter of the R effect.
- The network layer: RTK Query, axios, the hits service, the store wiring, and the clear-all request. `useDeleteAllHitsMutation` is not exported by the hits service, so that endpoint's behaviour cannot be modelled. A create request is the effect `CreateHit` and is not sent anywhere.
- Toasts, `window.confirm` and the toast's error text for a failed create.
- Dates: `new Date`, `toLocaleString` and `toFixed`. Timestamps are integers, and the mount time is a parameter.
- `toString` of the tick-mark numbers. A numeric caption carries the value itself.
- `JSON.stringify(data, null, 2)` is a function parameter of the error formatter.
- QueryError.StatusAndDataAreReadable: a status whose text contains ':' is not read back, because its text does not show where the status ends. None of the named statuses of the request library contain one.
- A disabled Prev or Next button does not fire in the model. The library only styles it as disabled, and whether the click is suppressed is library behaviour outside the model.
- Navbar, router, routes, App, LoadingButton and Statusbar. They are pure UI with no logic of the core.

=== FILE: common.dfy ===
/** Values shared by every part of the model. */

/** `T | null` of the TypeScript source. */
module Optional {

  datatype Option<+T> = None | Some(value: T)

  /** JavaScript truthiness of a `number | null`: both null and 0 are falsy.
      (NaN is falsy too, but the model has no NaN.) */
  predicate Truthy(r: Option<real>) {
    r.Some? && r.value != 0.0
  }
}

/** Numeric helpers for the coordinate code. */
module Numbers {

  /** Sign of a real number as -1, 0 or 1. */
  function Sign(v: real): (s: int)
    ensures s == 1 <==> v > 0.0
    ensures s == -1 <==> v < 0.0
    ensures s == 0 <==> v == 0.0
  {
    if v > 0.0 then 1 else if v < 0.0 then -1 else 0
  }
}

/** The hit record delivered by the backend (the `Hit` model of the front end). */
module Hits {

  /** One tested point: `isHit` is the backend's verdict; `createdAt` is the
      creation instant, modelled as an integer timestamp. */
  datatype Hit = Hit(id: int, x: real, y: real, r: real, isHit: bool, createdAt: int)

  /** The body of a create request: a point and the radius it is tested against. */
  datatype HitRequest = HitRequest(x: real, y: real, r: real)
}

=== FILE: dashboard_form.dfy ===
/** The X / Y / R form of the dashboard: field validation, the submit
    sequence, the R synchronisation effect and the submit button. */
module DashboardForm {
  import opened Optional
  import opened Hits
  import opened DashboardStore

  /** The three inputs as numbers; `None` is an empty input or text that is
      not a number. */
  datatype Fields = Fields(x: Option<real>, y: Option<real>, r: Option<real>)

  const EmptyFields := Fields(None, None, None)

  /** Validation of X: required, at least -5, at most 3. */
  function XError(v: Option<real>): (e: Option<string>)
    ensures e.None? <==> v.Some? && -5.0 <= v.value <= 3.0
    ensures v.None? ==> e == Some("X is required")
  {
    if v.None? then Some("X is required")
    else if v.value < -5.0 then Some("X must be at least -5")
    else if v.value > 3.0 then Some("X must be at most 3")
    else None
  }

  /** Validation of Y: a number between -3 and 3 (text input, not marked
      required, but an empty input is not a number either). */
  function YError(v: Option<real>): (e: Option<string>)
    ensures e.None? <==> v.Some? && -3.0 <= v.value <= 3.0
    ensures v.None? ==> e == Some("Y must be a number")
  {
    if v.None? then Some("Y must be a number")
    else if !(v.value >= -3.0 && v.value <= 3.0) then Some("Y must be between -3 and 3")
    else None
  }

  /** Validation of R: required, at least -5, at most 3; 0 and negative
      radii are accepted. */
  function RError(v: Option<real>): (e: Option<string>)
    ensures e.None? <==> v.Some? && -5.0 <= v.value <= 3.0
    ensures v.None? ==> e == Some("R is required")
  {
    if v.None? then Some("R is required")
    else if v.value < -5.0 then Some("R must be at least -5")
    else if v.value > 3.0 then Some("R must be at most 3")
    else None
  }

  predicate Valid(f: Fields) {
    XError(f.x).None? && YError(f.y).None? && RError(f.r).None?
  }

  /** The form: current values and the values it was last reset to. */
  datatype FormState = FormState(values: Fields, initial: Fields)

  const InitialForm := FormState(EmptyFields, EmptyFields)

  predicate Dirty(f: FormState) {
    f.values != f.initial
  }

  /** The submit button is disabled iff the form is untouched, invalid, or a
      creation is in flight. */
  predicate SubmitDisabled(f: FormState, isLoading: bool) {
    !Dirty(f) || !Valid(f.values) || isLoading
  }

  /** The store dispatches of `onSubmit`: store all three values, then (after
      forwarding the hit) clear X and Y. */
  function SubmitDispatches(x: real, y: real, r: real): seq<Action> {
    [SetX(Some(x)), SetY(Some(y)), SetR(Some(r)), SetX(None), SetY(None)]
  }

  datatype SubmitResult = SubmitResult(store: DashboardState, forwarded: seq<HitRequest>, form: FormState)

  /** `handleSubmit` with `onSubmit`. An invalid form changes nothing and
      forwards nothing; a valid one forwards its values once, leaves the
      store with X and Y cleared and the new R, and resets the form to empty
      X and Y with R kept. */
  function HandleSubmit(f: FormState, store: DashboardState): (res: SubmitResult)
    ensures !Valid(f.values) ==> res == SubmitResult(store, [], f)
    ensures Valid(f.values) ==>
              && res.forwarded == [HitRequest(f.values.x.value, f.values.y.value, f.values.r.value)]
              && res.store == DashboardState(None, None, f.values.r)
              && res.form.values == Fields(None, None, f.values.r)
              && !Dirty(res.form)
  {
    if !Valid(f.values) then SubmitResult(store, [], f)
    else
      var x, y, r := f.values.x.value, f.values.y.value, f.values.r.value;
      var kept := Fields(None, None, f.values.r);
      StoreAfterSubmit(store, x, y, r);
      SubmitResult(ReduceAll(store, SubmitDispatches(x, y, r)), [HitRequest(x, y, r)], FormState(kept, kept))
  }

  /** When the hit is forwarded, the store already holds all three values. */
  lemma StoreWhenForwarded(store: DashboardState, x: real, y: real, r: real)
    ensures ReduceAll(store, SubmitDispatches(x, y, r)[..3]) == DashboardState(Some(x), Some(y), Some(r))
  {
    var a := SubmitDispatches(x, y, r);
    assert a[..3][..2] == a[..2] && a[..2][..1] == a[..1] && a[..1][..0] == [];
    assert ReduceAll(store, a[..1]) == Reduce(store, a[0]);
    assert ReduceAll(store, a[..2]) == Reduce(ReduceAll(store, a[..1]), a[1]);
    assert ReduceAll(store, a[..3]) == Reduce(ReduceAll(store, a[..2]), a[2]);
  }

  /** After the whole sequence, X and Y are cleared and R is the submitted one. */
  lemma StoreAfterSubmit(store: DashboardState, x: real, y: real, r: real)
    ensures ReduceAll(store, SubmitDispatches(x, y, r)) == DashboardState(None, None, Some(r))
  {
    var a := SubmitDispatches(x, y, r);
    assert a[..5] == a;
    assert a[..5][..4] == a[..4] && a[..4][..3] == a[..3];
    StoreWhenForwarded(store, x, y, r);
    assert ReduceAll(store, a[..4]) == Reduce(ReduceAll(store, a[..3]), a[3]);
    assert ReduceAll(store, a) == Reduce(ReduceAll(store, a[..4]), a[4]);
  }

  /** Right after a submit the button is disabled until the user edits again. */
  lemma DisabledAfterSubmit(f: FormState, store: DashboardState, isLoading: bool)
    requires Valid(f.values)
    ensures SubmitDisabled(HandleSubmit(f, store).form, isLoading)
  {
  }

  /** The effect that copies a settled, valid R field into the store. */
  function SyncR(store: DashboardState, f: FormState, validating: bool): (t: DashboardState)
    ensures t.x == store.x && t.y == store.y
    ensures validating ==> t == store
    ensures !validating && RError(f.values.r).None? ==> t.r == f.values.r
    ensures t.r != store.r ==> t.r == f.values.r && RError(t.r).None?
  {
    if !validating && f.values.r.Some? && RError(f.values.r).None? then Reduce(store, SetR(f.values.r))
    else store
  }

  // ---------------------------------------------------------------------------
  // The form and the store over a session

  /** What can happen to the form: typing, a submit, or the R effect running
      (with validation still in flight or settled). */
  datatype FormEvent = Type(values: Fields) | Submit | Effect(validating: bool)

  datatype Session = Session(form: FormState, store: DashboardState, forwarded: seq<HitRequest>)

  const InitialSession := Session(InitialForm, InitialState, [])

  function SessionStep(s: Session, ev: FormEvent): Session {
    match ev
    case Type(v) => s.(form := s.form.(values := v))
    case Submit =>
      var res := HandleSubmit(s.form, s.store);
      Session(res.form, res.store, s.forwarded + res.forwarded)
    case Effect(validating) => s.(store := SyncR(s.store, s.form, validating))
  }

  function RunSession(s: Session, events: seq<FormEvent>): Session {
    if |events| == 0 then s else SessionStep(RunSession(s, events[..|events| - 1]), events[|events| - 1])
  }

  /** R in the store is unset or a value the form accepts. */
  predicate StoreRAccepted(store: DashboardState) {
    store.r.None? || RError(store.r).None?
  }

  /** A request the form lets through. */
  predicate RequestAccepted(h: HitRequest) {
    -5.0 <= h.x <= 3.0 && -3.0 <= h.y <= 3.0 && -5.0 <= h.r <= 3.0
  }

  /** Whatever the user does, the store's R stays unset or within [-5, 3] (so
      the graph can see R = 0 or a negative R, but nothing outside the
      range), and every forwarded hit is within the form's ranges. */
  lemma {:induction false} SessionKeepsRanges(events: seq<FormEvent>)
    ensures StoreRAccepted(RunSession(InitialSession, events).store)
    ensures forall k :: 0 <= k < |RunSession(InitialSession, events).forwarded| ==>
              RequestAccepted(RunSession(InitialSession, events).forwarded[k])
  {
    if |events| > 0 {
      SessionKeepsRanges(events[..|events| - 1]);
    }
  }
}

=== FILE: dashboard_page.dfy ===
/** The dashboard page: which hits the graph is given, and what a click on
    the graph or a form submit turns into. */
module DashboardPage {
  import opened Optional
  import opened Hits
  import opened GraphUnits
  import opened GraphInteraction
  import opened DashboardStore
  import opened DashboardForm

  /** `a` occurs in `b` in order, possibly with gaps. */
  ghost predicate IsSubsequence<T>(a: seq<T>, b: seq<T>)
    decreases |b|
  {
    |a| == 0 || (|b| > 0 && ((a[0] == b[0] && IsSubsequence(a[1..], b[1..])) || IsSubsequence(a, b[1..])))
  }

  /** The hits drawn for radius `r`: exactly those recorded with that radius,
      in their order, each as often as it occurs. */
  function FilterByR(hits: seq<Hit>, r: Option<real>): (out: seq<Hit>)
    ensures forall h :: h in out ==> Some(h.r) == r
    ensures forall h :: multiset(out)[h] == if Some(h.r) == r then multiset(hits)[h] else 0
    ensures IsSubsequence(out, hits)
  {
    if |hits| == 0 then []
    else
      assert hits == [hits[0]] + hits[1..];
      var rest := FilterByR(hits[1..], r);
      if Some(hits[0].r) == r then
        assert ([hits[0]] + rest)[1..] == rest;
        [hits[0]] + rest
      else rest
  }

  /** The `hits` prop of the graph: nothing while the hits are not loaded
      or R is unset (a number is never `===` null). */
  function GraphHits(hits: Option<seq<Hit>>, r: Option<real>): (out: seq<Hit>)
    ensures hits.None? || r.None? ==> out == []
    ensures forall h :: h in out ==> Some(h.r) == r
    ensures hits.Some? ==> IsSubsequence(out, hits.value)
    ensures hits.Some? ==>
              forall h :: multiset(out)[h] == if Some(h.r) == r then multiset(hits.value)[h] else 0
  {
    if hits.None? then [] else FilterByR(hits.value, r)
  }

  /** What the page does in response to the graph or the form. */
  datatype PageEffect =
    | NoEffect
    | ErrorToast(message: string)
    | CreateHit(request: HitRequest)
    | CreateNonFinite(r: real)   // `createHit` with the non-finite x, y of an unmeasured canvas

  /** `createHitWithToast`: the one path to the create request. */
  function CreatePath(x: real, y: real, r: real): PageEffect {
    CreateHit(HitRequest(x, y, r))
  }

  /** A click on the graph, which is given the store's R and both callbacks. */
  function OnGraphClick(r: Option<real>, extent: Extent, canvas: Option<Point>, client: Point): (eff: PageEffect)
    ensures !Truthy(r) ==> eff == if canvas.None? then NoEffect else ErrorToast("r is not specified")
    ensures eff.CreateHit? ==>
              && Truthy(r) && eff.request.r == r.value && canvas.Some?
              && PxPointToClientPoint(canvas.value, extent,
                   UnitsPointToPxPoint(extent, r.value, Point(eff.request.x, eff.request.y))) == client
    ensures Truthy(r) && canvas.Some? && ShortSide(extent) != 0.0 ==> eff.CreateHit?
    ensures canvas.None? ==> eff == NoEffect
  {
    match OnClick(GraphEnv(extent, r, canvas), Callbacks(true, true), client)
    case Ignored => NoEffect
    case MissingR => ErrorToast("r is not specified")
    case Submit(p) => if !Truthy(r) then NoEffect else CreatePath(p.x, p.y, r.value)
    case SubmitNonFinite => if !Truthy(r) then NoEffect else CreateNonFinite(r.value)
  }

  /** The form's submit, with `onHitSubmit` sending each forwarded hit down
      the create path unchanged. */
  function OnFormSubmit(f: FormState, store: DashboardState): (res: (SubmitResult, seq<PageEffect>))
    ensures res.0 == HandleSubmit(f, store)
    // a valid form creates exactly its own (x, y, r); an invalid one creates nothing
    ensures Valid(f.values) ==>
              res.1 == [CreateHit(HitRequest(f.values.x.value, f.values.y.value, f.values.r.value))]
    ensures !Valid(f.values) ==> res.1 == []
    ensures |res.1| == |res.0.forwarded| <= 1
    ensures forall k :: 0 <= k < |res.1| ==>
              res.1[k] == CreateHit(res.0.forwarded[k]) && RequestAccepted(res.1[k].request)
  {
    var sub := HandleSubmit(f, store);
    (sub, seq(|sub.forwarded|, k requires 0 <= k < |sub.forwarded| =>
            CreatePath(sub.forwarded[k].x, sub.forwarded[k].y, sub.forwarded[k].r)))
  }
}

=== FILE: dashboard_store.dfy ===
/** The `dashboard` slice of the store: the last X, Y and R the user chose. */
module DashboardStore {
  import opened Optional

  datatype DashboardState = DashboardState(x: Option<real>, y: Option<real>, r: Option<real>)

  /** `initialState`: nothing chosen yet. */
  const InitialState := DashboardState(None, None, None)

  /** The three actions of the slice; a null payload clears the field. */
  datatype Action = SetX(payload: Option<real>) | SetY(payload: Option<real>) | SetR(payload: Option<real>)

  /** The slice reducer: each action overwrites its own field and nothing else. */
  function Reduce(s: DashboardState, a: Action): (t: DashboardState)
    ensures a.SetX? ==> t.x == a.payload && t.y == s.y && t.r == s.r
    ensures a.SetY? ==> t.y == a.payload && t.x == s.x && t.r == s.r
    ensures a.SetR? ==> t.r == a.payload && t.x == s.x && t.y == s.y
  {
    match a
    case SetX(v) => s.(x := v)
    case SetY(v) => s.(y := v)
    case SetR(v) => s.(r := v)
  }

  /** Dispatching the same action twice is dispatching it once. */
  lemma ReduceIdempotent(s: DashboardState, a: Action)
    ensures Reduce(Reduce(s, a), a) == Reduce(s, a)
  {
  }

  predicate SameField(a: Action, b: Action) {
    (a.SetX? && b.SetX?) || (a.SetY? && b.SetY?) || (a.SetR? && b.SetR?)
  }

  /** Actions on different fields commute. */
  lemma ReduceCommutes(s: DashboardState, a: Action, b: Action)
    requires !SameField(a, b)
    ensures Reduce(Reduce(s, a), b) == Reduce(Reduce(s, b), a)
  {
  }

  /** The state after dispatching `actions` in order. */
  function ReduceAll(s: DashboardState, actions: seq<Action>): DashboardState
  {
    if |actions| == 0 then s else Reduce(ReduceAll(s, actions[..|actions| - 1]), actions[|actions| - 1])
  }

  /** The payload of the last action that sets the field chosen by `field`, or
      `d` when no action sets it. */
  function LastPayload(actions: seq<Action>, field: Action -> bool, d: Option<real>): Option<real>
  {
    if |actions| == 0 then d
    else if field(actions[|actions| - 1]) then actions[|actions| - 1].payload
    else LastPayload(actions[..|actions| - 1], field, d)
  }

  predicate IsSetX(a: Action) { a.SetX? }
  predicate IsSetY(a: Action) { a.SetY? }
  predicate IsSetR(a: Action) { a.SetR? }

  /** After any sequence of dispatches, each field holds the payload of the
      last action on that field (the last write wins, fields are independent). */
  lemma {:induction false} ReduceAllLastWriteWins(s: DashboardState, actions: seq<Action>)
    ensures ReduceAll(s, actions).x == LastPayload(actions, IsSetX, s.x)
    ensures ReduceAll(s, actions).y == LastPayload(actions, IsSetY, s.y)
    ensures ReduceAll(s, actions).r == LastPayload(actions, IsSetR, s.r)
  {
    if |actions| > 0 {
      ReduceAllLastWriteWins(s, actions[..|actions| - 1]);
    }
  }
}

=== FILE: graph_drawing.dfy ===
/** What the graph draws, as symbolic draw commands in pixel space (origin at
    the canvas centre, y down): the region outline, the axes, the R tick
    marks, the hit markers and the drag preview. */
module GraphDrawing {
  import opened Optional
  import opened Numbers
  import opened Hits
  import opened GraphUnits
  import opened GraphLabel

  const GRID_LINES_MULTIPLIER: real := 0.8
  const R_MARK_LEN_PX: real := 20.0
  const FONT_SIZE: real := 16.0
  const FONT_SIZE_SM: real := 10.0

  /** `PointColor`: the palette of the graph. */
  datatype PointColor = ShapeColor | GraphColor | HitColor | MissColor | PreviewColor | OldHitColor | OldMissColor

  /** Arc angles are kept symbolic. On screen (y down) -pi/2 points up; in
      units (y up) pi/2 does. 0 points right in both. */
  datatype Angle = MinusHalfPi | ZeroAngle | HalfPi

  /** An angle with the y axis flipped. */
  function FlipAngle(a: Angle): Angle {
    match a
    case MinusHalfPi => HalfPi
    case HalfPi => MinusHalfPi
    case ZeroAngle => ZeroAngle
  }

  datatype DrawCmd =
    | Clear
    | LineStyle(stroke: PointColor, width: real)
    | BeginFill(fill: PointColor, alpha: real)
    | EndFill
    | MoveTo(pt: Point)
    | LineTo(pt: Point)
    | Arc(center: Point, radius: real, startAngle: Angle, endAngle: Angle)

  // ---------------------------------------------------------------------------
  // The region outline

  /** `drawShape`, for the pseudo-radius in pixels `rPx`. */
  function ShapeCommands(rPx: real): seq<DrawCmd> {
    [ Clear, BeginFill(ShapeColor, 0.5),
      // quarter circle
      Arc(Origin, rPx / 2.0, MinusHalfPi, ZeroAngle),
      MoveTo(Point(0.0, -rPx / 2.0)), LineTo(Point(rPx / 2.0, 0.0)), LineTo(Origin),
      // rectangle
      LineTo(Point(rPx, 0.0)), LineTo(Point(rPx, rPx / 2.0)), LineTo(Point(0.0, rPx / 2.0)),
      // triangle
      MoveTo(Point(0.0, rPx)), LineTo(Point(-rPx, 0.0)), LineTo(Origin),
      EndFill ]
  }

  /** A draw command with its points, lengths and angles read back in units
      (y up). */
  function CmdToUnits(e: Extent, pseudoR: real, c: DrawCmd): DrawCmd
    requires pseudoR != 0.0 && ShortSide(e) != 0.0
  {
    match c
    case MoveTo(p) => MoveTo(PxPointToUnitsPoint(e, pseudoR, p))
    case LineTo(p) => LineTo(PxPointToUnitsPoint(e, pseudoR, p))
    case Arc(p, radius, a, b) => Arc(PxPointToUnitsPoint(e, pseudoR, p), PxToUnits(e, pseudoR, radius), FlipAngle(a), FlipAngle(b))
    case _ => c
  }

  function CommandsToUnits(e: Extent, pseudoR: real, cs: seq<DrawCmd>): (us: seq<DrawCmd>)
    requires pseudoR != 0.0 && ShortSide(e) != 0.0
    ensures |us| == |cs|
    ensures forall i :: 0 <= i < |cs| ==> us[i] == CmdToUnits(e, pseudoR, cs[i])
  {
    seq(|cs|, i requires 0 <= i < |cs| => CmdToUnits(e, pseudoR, cs[i]))
  }

  /** The region in units, for radius `r`: a quarter disc of radius r/2 in the
      upper-right quadrant (the arc runs from straight up to the right), an r by r/2 rectangle below the positive x axis,
      and a right triangle with legs r in the lower-left quadrant. */
  function UnitRegion(r: real): seq<DrawCmd> {
    [ Clear, BeginFill(ShapeColor, 0.5),
      Arc(Point(0.0, 0.0), r / 2.0, HalfPi, ZeroAngle),
      MoveTo(Point(0.0, r / 2.0)), LineTo(Point(r / 2.0, 0.0)), LineTo(Point(0.0, 0.0)),
      LineTo(Point(r, 0.0)), LineTo(Point(r, -r / 2.0)), LineTo(Point(0.0, -r / 2.0)),
      MoveTo(Point(0.0, -r)), LineTo(Point(-r, 0.0)), LineTo(Point(0.0, 0.0)),
      EndFill ]
  }

  /** Drawn at `pseudoRPx` and read back in units, the outline is exactly the
      region scaled by the pseudo-radius. */
  lemma ShapeIsRegionInUnits(e: Extent, r: Option<real>)
    requires PseudoR(r) != 0.0 && ShortSide(e) != 0.0
    ensures CommandsToUnits(e, PseudoR(r), ShapeCommands(PseudoRPx(e, r))) == UnitRegion(PseudoR(r))
  {
    var p, rPx := PseudoR(r), PseudoRPx(e, r);
    VertexBack(e, r, 0.5, 0.0);
    VertexBack(e, r, 0.0, -0.5);
    VertexBack(e, r, 0.0, 0.0);
    VertexBack(e, r, 1.0, 0.0);
    VertexBack(e, r, 1.0, 0.5);
    VertexBack(e, r, 0.0, 0.5);
    VertexBack(e, r, 0.0, 1.0);
    VertexBack(e, r, -1.0, 0.0);
    ShapeBack(e, p, rPx);
  }

  /** The outline read back in units, given where its vertices land. Each
      vertex fact is `VertexBack` at one (a, b), written as `a * rPx` and
      `-(b * p)` even where a or b is 0, so it matches that lemma's
      conclusion term for term. */
  lemma ShapeBack(e: Extent, p: real, rPx: real)
    requires p != 0.0 && ShortSide(e) != 0.0
    requires PxPointToUnitsPoint(e, p, Point(0.5 * rPx, 0.0 * rPx)) == Point(0.5 * p, -(0.0 * p))
    requires PxPointToUnitsPoint(e, p, Point(0.0 * rPx, -0.5 * rPx)) == Point(0.0 * p, -(-0.5 * p))
    requires PxPointToUnitsPoint(e, p, Point(0.0 * rPx, 0.0 * rPx)) == Point(0.0 * p, -(0.0 * p))
    requires PxPointToUnitsPoint(e, p, Point(1.0 * rPx, 0.0 * rPx)) == Point(1.0 * p, -(0.0 * p))
    requires PxPointToUnitsPoint(e, p, Point(1.0 * rPx, 0.5 * rPx)) == Point(1.0 * p, -(0.5 * p))
    requires PxPointToUnitsPoint(e, p, Point(0.0 * rPx, 0.5 * rPx)) == Point(0.0 * p, -(0.5 * p))
    requires PxPointToUnitsPoint(e, p, Point(0.0 * rPx, 1.0 * rPx)) == Point(0.0 * p, -(1.0 * p))
    requires PxPointToUnitsPoint(e, p, Point(-1.0 * rPx, 0.0 * rPx)) == Point(-1.0 * p, -(0.0 * p))
    ensures CommandsToUnits(e, p, ShapeCommands(rPx)) == UnitRegion(p)
  {
  }

  /** The pixel point (a, b) * `pseudoRPx` is the unit point (a, -b) * pseudo-radius. */
  lemma VertexBack(e: Extent, r: Option<real>, a: real, b: real)
    requires PseudoR(r) != 0.0 && ShortSide(e) != 0.0
    ensures PxPointToUnitsPoint(e, PseudoR(r), Point(a * PseudoRPx(e, r), b * PseudoRPx(e, r)))
            == Point(a * PseudoR(r), -(b * PseudoR(r)))
  {
  }

  /** A multiple of the pseudo-radius in pixels is that multiple of the
      pseudo-radius in units. */
  lemma ScaledRadiusPx(e: Extent, r: Option<real>, k: real)
    requires PseudoR(r) != 0.0
    ensures UnitsToPx(e, PseudoR(r), k * PseudoR(r)) == k * PseudoRPx(e, r)
  {
  }

  // ---------------------------------------------------------------------------
  // The axes

  /** `drawGrid`: the two axes through the canvas centre. */
  function GridCommands(e: Extent): (cs: seq<DrawCmd>)
    ensures |cs| == 7 && cs[2].MoveTo? && cs[3].LineTo? && cs[4].MoveTo? && cs[5].LineTo?
    // the horizontal axis is centred and spans 80% of the width
    ensures cs[2].pt.y == 0.0 && cs[3].pt.y == 0.0 && cs[2].pt.x == -cs[3].pt.x
    ensures cs[3].pt.x - cs[2].pt.x == GRID_LINES_MULTIPLIER * e.width
    // the vertical axis is centred and spans 80% of the height
    ensures cs[4].pt.x == 0.0 && cs[5].pt.x == 0.0 && cs[4].pt.y == -cs[5].pt.y
    ensures cs[5].pt.y - cs[4].pt.y == GRID_LINES_MULTIPLIER * e.height
  {
    [ Clear, LineStyle(GraphColor, 2.0),
      MoveTo(Point((-e.width / 2.0) * GRID_LINES_MULTIPLIER, 0.0)),
      LineTo(Point((e.width / 2.0) * GRID_LINES_MULTIPLIER, 0.0)),
      MoveTo(Point(0.0, (-e.height / 2.0) * GRID_LINES_MULTIPLIER)),
      LineTo(Point(0.0, (e.height / 2.0) * GRID_LINES_MULTIPLIER)),
      EndFill ]
  }

  // ---------------------------------------------------------------------------
  // The R tick marks

  /** A tick caption: the symbolic names while R is unset, the number otherwise
      (`toString` of a number is not modelled; the value stands for its text). */
  datatype MarkLabel = Symbolic(text: string) | Numeric(value: real)

  datatype RMark = RMark(at: real, caption: MarkLabel)

  /** `rMarks`: ticks at -R, -R/2, R/2 and R (of the pseudo-radius). */
  function RMarks(r: Option<real>): (ms: seq<RMark>)
    ensures |ms| == 4
    ensures ms[3].at == PseudoR(r) && ms[2].at == PseudoR(r) / 2.0
    ensures forall i :: 0 <= i < 4 ==> ms[i].at == -ms[3 - i].at
    ensures forall i :: 0 <= i < 4 ==> (ms[i].caption.Symbolic? <==> r.None?)
    ensures r.Some? ==> forall i :: 0 <= i < 4 ==> ms[i].caption == Numeric(ms[i].at)
    ensures r.None? ==> [ms[0].caption.text, ms[1].caption.text, ms[2].caption.text, ms[3].caption.text]
                        == ["-R", "-R/2", "R/2", "R"]
  {
    var p := PseudoR(r);
    var rs := [-p, -p / 2.0, p / 2.0, p];
    if r.None? then
      [RMark(rs[0], Symbolic("-R")), RMark(rs[1], Symbolic("-R/2")),
       RMark(rs[2], Symbolic("R/2")), RMark(rs[3], Symbolic("R"))]
    else
      seq(4, i requires 0 <= i < 4 => RMark(rs[i], Numeric(rs[i])))
  }

  /** On a measured canvas the ticks sit at a third and a sixth of the
      shorter side on either side of the centre, whatever R is. */
  lemma MarksAtFixedPixels(e: Extent, r: Option<real>)
    requires PseudoR(r) != 0.0
    ensures var ms := RMarks(r);
            var third := ShortSide(e) / R_PX_MODIFIER;
            [UnitsToPx(e, PseudoR(r), ms[0].at), UnitsToPx(e, PseudoR(r), ms[1].at),
             UnitsToPx(e, PseudoR(r), ms[2].at), UnitsToPx(e, PseudoR(r), ms[3].at)]
            == [-third, -third / 2.0, third / 2.0, third]
  {
    ScaledRadiusPx(e, r, 1.0);
    ScaledRadiusPx(e, r, 0.5);
    ScaledRadiusPx(e, r, -0.5);
    ScaledRadiusPx(e, r, -1.0);
  }

  /** The direction a tick segment runs in. */
  datatype Orientation = Horizontal | Vertical

  /** One drawn tick: a short segment across an axis and its caption. */
  datatype MarkGlyph = MarkGlyph(tickStart: Point, tickEnd: Point, textAt: Point, caption: MarkLabel)

  function TickMidpoint(g: MarkGlyph): Point {
    Point((g.tickStart.x + g.tickEnd.x) / 2.0, (g.tickStart.y + g.tickEnd.y) / 2.0)
  }

  /** `GraphGridRMark`: a vertical tick (on the x axis) or a horizontal tick
      (on the y axis) centred on the unit point, its caption beyond the tick. */
  function MarkGlyphAt(e: Extent, pseudoR: real, at: Point, d: Orientation, caption: MarkLabel): (g: MarkGlyph)
    requires pseudoR != 0.0
    ensures g.caption == caption
    ensures var c := UnitsPointToPxPoint(e, pseudoR, at);
            && TickMidpoint(g) == c
            && (d.Vertical? ==> g.tickStart.x == g.tickEnd.x && g.tickEnd.y - g.tickStart.y == R_MARK_LEN_PX
                                && g.textAt.x == c.x && g.textAt.y < g.tickStart.y)
            && (d.Horizontal? ==> g.tickStart.y == g.tickEnd.y && g.tickEnd.x - g.tickStart.x == R_MARK_LEN_PX
                                  && g.textAt.y == c.y && g.textAt.x > g.tickEnd.x)
  {
    var c := UnitsPointToPxPoint(e, pseudoR, at);
    var textX := if d.Vertical? then c.x else c.x + R_MARK_LEN_PX + FONT_SIZE / 2.0;
    var textY := if d.Horizontal? then c.y else c.y - R_MARK_LEN_PX - FONT_SIZE / 2.0;
    if d.Horizontal? then
      MarkGlyph(Point(c.x - R_MARK_LEN_PX / 2.0, c.y), Point(c.x + R_MARK_LEN_PX / 2.0, c.y), Point(textX, textY), caption)
    else
      MarkGlyph(Point(c.x, c.y - R_MARK_LEN_PX / 2.0), Point(c.x, c.y + R_MARK_LEN_PX / 2.0), Point(textX, textY), caption)
  }

  /** Every mark is drawn twice: across the x axis and across the y axis. */
  function MarkGlyphs(e: Extent, r: Option<real>): (gs: seq<MarkGlyph>)
    requires PseudoR(r) != 0.0
    ensures |gs| == 8
    ensures forall i :: 0 <= i < 4 ==> gs[2 * i].caption == RMarks(r)[i].caption && gs[2 * i + 1].caption == RMarks(r)[i].caption
    // mark i is drawn across the x axis at its value, then across the y axis at its value
    ensures forall i :: 0 <= i < 4 ==>
              && TickMidpoint(gs[2 * i]) == Point(UnitsToPx(e, PseudoR(r), RMarks(r)[i].at), 0.0)
              && gs[2 * i].tickStart.x == gs[2 * i].tickEnd.x
    ensures forall i :: 0 <= i < 4 ==>
              && TickMidpoint(gs[2 * i + 1]) == Point(0.0, -UnitsToPx(e, PseudoR(r), RMarks(r)[i].at))
              && gs[2 * i + 1].tickStart.y == gs[2 * i + 1].tickEnd.y
  {
    var ms, p := RMarks(r), PseudoR(r);
    [ MarkGlyphAt(e, p, Point(ms[0].at, 0.0), Vertical, ms[0].caption),
      MarkGlyphAt(e, p, Point(0.0, ms[0].at), Horizontal, ms[0].caption),
      MarkGlyphAt(e, p, Point(ms[1].at, 0.0), Vertical, ms[1].caption),
      MarkGlyphAt(e, p, Point(0.0, ms[1].at), Horizontal, ms[1].caption),
      MarkGlyphAt(e, p, Point(ms[2].at, 0.0), Vertical, ms[2].caption),
      MarkGlyphAt(e, p, Point(0.0, ms[2].at), Horizontal, ms[2].caption),
      MarkGlyphAt(e, p, Point(ms[3].at, 0.0), Vertical, ms[3].caption),
      MarkGlyphAt(e, p, Point(0.0, ms[3].at), Horizontal, ms[3].caption) ]
  }

  // ---------------------------------------------------------------------------
  // Hit markers

  /** The colour of a hit: bright if it was created after the graph mounted,
      muted otherwise (an equal timestamp counts as old); green for a hit, red
      for a miss. */
  function HitPointColor(h: Hit, mountedAt: int): (c: PointColor)
    ensures c in {HitColor, MissColor, OldHitColor, OldMissColor}
    ensures (c == HitColor || c == MissColor) <==> h.createdAt > mountedAt
    ensures (c == HitColor || c == OldHitColor) <==> h.isHit
  {
    if h.createdAt > mountedAt then
      (if h.isHit then HitColor else MissColor)
    else
      (if h.isHit then OldHitColor else OldMissColor)
  }

  /** A hit as drawn: its id, pixel position and colour. */
  datatype RenderedPoint = RenderedPoint(id: int, at: Point, color: PointColor)

  /** The `points` layer: one marker per hit, in order. */
  function RenderPoints(e: Extent, pseudoR: real, hits: seq<Hit>, mountedAt: int): (ps: seq<RenderedPoint>)
    requires pseudoR != 0.0
    ensures |ps| == |hits|
    ensures forall i :: 0 <= i < |hits| ==> ps[i].id == hits[i].id && ps[i].color == HitPointColor(hits[i], mountedAt)
    ensures ShortSide(e) != 0.0 ==>
              forall i :: 0 <= i < |hits| ==> PxPointToUnitsPoint(e, pseudoR, ps[i].at) == Point(hits[i].x, hits[i].y)
  {
    var ps := seq(|hits|, i requires 0 <= i < |hits| =>
      RenderedPoint(hits[i].id, UnitsPointToPxPoint(e, pseudoR, Point(hits[i].x, hits[i].y)), HitPointColor(hits[i], mountedAt)));
    if ShortSide(e) != 0.0 then
      assert forall i :: 0 <= i < |hits| ==> PxPointToUnitsPoint(e, pseudoR, ps[i].at) == Point(hits[i].x, hits[i].y) by {
        forall i | 0 <= i < |hits| {
          UnitsPointRoundTrip(e, pseudoR, Point(hits[i].x, hits[i].y));
        }
      }
      ps
    else ps
  }

  // ---------------------------------------------------------------------------
  // Drag preview

  /** Where the "preview" text goes for a drag anchored at pixel `anchor`: the
      placement is chosen in unit orientation (y flipped back) and shifted by
      the small font size. */
  function PreviewLabelAt(anchor: Point): Point {
    var o := LabelPositionToOffset(ConvenientPosition(anchor.x, -anchor.y), FONT_SIZE_SM);
    Point(anchor.x + o.xOffset, anchor.y + o.yOffset)
  }

  /** The preview label is always pushed away from the origin, on screen, on
      each axis the anchor is off; at the origin it goes up and right. */
  lemma PreviewLabelAwayFromOrigin(anchor: Point)
    ensures anchor != Origin ==>
              Sign(PreviewLabelAt(anchor).x - anchor.x) == Sign(anchor.x)
              && Sign(PreviewLabelAt(anchor).y - anchor.y) == Sign(anchor.y)
    ensures anchor == Origin ==> PreviewLabelAt(anchor) == Point(FONT_SIZE_SM, -FONT_SIZE_SM)
  {
  }
}

=== FILE: graph_interaction.dfy ===
/** Pointer handling of the graph: a click submits a point (or reports that R
    is missing); mouse down / move / up / leave drive a drag preview that
    never submits anything. */
module GraphInteraction {
  import opened Optional
  import opened GraphUnits

  /** What a handler reads when an event arrives: the canvas extent, the R
      prop, and the origin of the canvas' client rect (`None` until the
      canvas is mounted). */
  datatype GraphEnv = GraphEnv(extent: Extent, r: Option<real>, canvas: Option<Point>)

  /** Which of the optional callbacks the graph was given. */
  datatype Callbacks = Callbacks(hasOnClick: bool, hasOnClickNoR: bool)

  /** What a click does. `SubmitNonFinite` is `onClick` being called with the
      non-finite numbers JavaScript produces on a canvas that is not measured
      yet (a zero scale divides the pixels). With R = 0 on a measured canvas
      the scale is infinite instead, and `onClick` gets the origin. */
  datatype ClickOutcome = Ignored | MissingR | Submit(at: Point) | SubmitNonFinite

  /** `onClickWrapper`. Nothing happens without `onClick` or before the canvas
      is mounted (not even `onClickNoR`); a falsy R (unset or 0) calls
      `onClickNoR` when there is one; otherwise `onClick` gets the click in
      units. */
  function OnClick(env: GraphEnv, cb: Callbacks, client: Point): (o: ClickOutcome)
    ensures o.Ignored? <==> !cb.hasOnClick || env.canvas.None?
    ensures o.MissingR? <==> cb.hasOnClick && env.canvas.Some? && !Truthy(env.r) && cb.hasOnClickNoR
    ensures (o.Submit? || o.SubmitNonFinite?) <==>
              cb.hasOnClick && env.canvas.Some? && (Truthy(env.r) || !cb.hasOnClickNoR)
    ensures o.SubmitNonFinite? <==>
              cb.hasOnClick && env.canvas.Some? && (Truthy(env.r) || !cb.hasOnClickNoR)
              && ShortSide(env.extent) == 0.0
    // R = 0 (without `onClickNoR`): every pixel divided by an infinite scale is 0
    ensures o.Submit? && PseudoR(env.r) == 0.0 ==> o.at == Origin
    ensures o.Submit? && PseudoR(env.r) != 0.0 ==>
              && ShortSide(env.extent) != 0.0
              && PxPointToClientPoint(env.canvas.value, env.extent,
                                      UnitsPointToPxPoint(env.extent, PseudoR(env.r), o.at)) == client
  {
    if !cb.hasOnClick || env.canvas.None? then Ignored
    else if !Truthy(env.r) && cb.hasOnClickNoR then MissingR
    else
      var px := ClientPointToPxPoint(env.canvas, env.extent, client);
      if ShortSide(env.extent) == 0.0 then SubmitNonFinite
      else if PseudoR(env.r) == 0.0 then Submit(Origin)
      else Submit(PxPointToUnitsPoint(env.extent, PseudoR(env.r), px))
  }

  /** With both callbacks given and R set to a non-zero value, a click on a
      measured, mounted canvas always submits. */
  lemma ClickWithRSubmits(env: GraphEnv, client: Point)
    requires env.canvas.Some? && Truthy(env.r) && ShortSide(env.extent) != 0.0
    ensures OnClick(env, Callbacks(true, true), client).Submit?
  {
  }

  /** With R = 0 and no `onClickNoR`, a click anywhere on a measured 300x300
      canvas calls `onClick` with the origin. */
  lemma ZeroRClickSubmitsOrigin(canvas: Point, client: Point)
    ensures OnClick(GraphEnv(Extent(300.0, 300.0), Some(0.0), Some(canvas)), Callbacks(true, false), client)
            == Submit(Origin)
  {
  }

  // ---------------------------------------------------------------------------
  // Drag preview

  /** `draggedPointPx`: no drag, or a drag whose preview sits at a pixel point. */
  datatype Drag = Idle | Anchored(at: Point)

  datatype MouseEvent = MouseDown(client: Point) | MouseMove(client: Point) | MouseUp | MouseLeave

  /** One pointer event together with what the graph knew when it arrived. */
  datatype Input = Input(env: GraphEnv, ev: MouseEvent)

  /** `startDrag`, `drag`, `endDrag` and `cancelDrag`. */
  function Step(d: Drag, i: Input): (d': Drag)
    // up and leave always end the drag
    ensures i.ev.MouseUp? || i.ev.MouseLeave? ==> d' == Idle
    // a drag starts only from idle, on a mounted canvas, with R truthy,
    // anchored where the mouse went down
    ensures i.ev.MouseDown? ==>
              if d.Idle? && i.env.canvas.Some? && Truthy(i.env.r)
              then d'.Anchored? && PxPointToClientPoint(i.env.canvas.value, i.env.extent, d'.at) == i.ev.client
              else d' == d
    // a move only follows an existing drag
    ensures i.ev.MouseMove? ==>
              (d.Idle? ==> d' == Idle)
              && (d.Anchored? ==> d'.Anchored? && d'.at == ClientPointToPxPoint(i.env.canvas, i.env.extent, i.ev.client))
  {
    match i.ev
    case MouseDown(c) =>
      if d.Anchored? || i.env.canvas.None? || !Truthy(i.env.r) then d
      else Anchored(ClientPointToPxPoint(i.env.canvas, i.env.extent, c))
    case MouseMove(c) =>
      if d.Idle? then d
      else Anchored(ClientPointToPxPoint(i.env.canvas, i.env.extent, c))
    case MouseUp => if d.Idle? then d else Idle
    case MouseLeave => if d.Idle? then d else Idle
  }

  /** A second mouse-down during a drag keeps the first anchor. */
  lemma DragExclusive(p: Point, i: Input)
    requires i.ev.MouseDown?
    ensures Step(Anchored(p), i) == Anchored(p)
  {
  }

  /** The drag state after a sequence of events. */
  function Run(d: Drag, trace: seq<Input>): Drag {
    if |trace| == 0 then d else Step(Run(d, trace[..|trace| - 1]), trace[|trace| - 1])
  }

  /** Without a truthy R at any mouse-down, no drag ever starts. */
  lemma {:induction false} NoDragWithoutR(trace: seq<Input>)
    requires forall k :: 0 <= k < |trace| && trace[k].ev.MouseDown? ==> !Truthy(trace[k].env.r)
    ensures Run(Idle, trace) == Idle
  {
    if |trace| > 0 {
      NoDragWithoutR(trace[..|trace| - 1]);
    }
  }

  /** Whenever a preview is shown, it sits at the pixel point of the last
      mouse-move, or of the mouse-down that started the drag; every event
      after that one is a mouse-down, which a running drag ignores. */
  lemma {:induction false} AnchorIsLastPosition(trace: seq<Input>)
    requires Run(Idle, trace).Anchored?
    ensures exists k :: 0 <= k < |trace| && LastPositionAt(trace, k, Run(Idle, trace).at)
  {
    var n := |trace|;
    assert n > 0;
    var prev := Run(Idle, trace[..n - 1]);
    var last := trace[n - 1];
    if last.ev.MouseDown? && prev.Anchored? {
      AnchorIsLastPosition(trace[..n - 1]);
      var k :| 0 <= k < n - 1 && LastPositionAt(trace[..n - 1], k, prev.at);
      assert LastPositionAt(trace, k, prev.at) by {
        forall j | k < j < n
          ensures trace[j].ev.MouseDown?
        {
          if j < n - 1 {
            assert trace[j] == trace[..n - 1][j];
          }
        }
      }
    } else {
      assert LastPositionAt(trace, n - 1, Run(Idle, trace).at);
    }
  }

  /** Event `k` put the anchor at `p`, and every later event is a mouse-down. */
  ghost predicate LastPositionAt(trace: seq<Input>, k: int, p: Point)
    requires 0 <= k < |trace|
  {
    && (trace[k].ev.MouseDown? || trace[k].ev.MouseMove?)
    && p == ClientPointToPxPoint(trace[k].env.canvas, trace[k].env.extent, trace[k].ev.client)
    && forall j :: k < j < |trace| ==> trace[j].ev.MouseDown?
  }
}

=== FILE: graph_label.dfy ===
/** Placement of a text label next to a point of the graph: the label is put
    in the compass direction that points away from the origin. */
module GraphLabel {
  import opened Numbers

  /** `GraphLabelPosition`: the eight compass directions. */
  datatype GraphLabelPosition =
    | Left | Right | Top | Bottom
    | TopLeft | TopRight | BottomLeft | BottomRight

  /** Screen offset of a label from its point (screen y grows downward). */
  datatype Offset = Offset(xOffset: real, yOffset: real)

  /** The compass meaning of a direction, independent of how it is chosen:
      -1 west, 1 east, 0 neither. */
  function EastWest(p: GraphLabelPosition): int {
    match p
    case Left | TopLeft | BottomLeft => -1
    case Right | TopRight | BottomRight => 1
    case Top | Bottom => 0
  }

  /** -1 south, 1 north, 0 neither. */
  function NorthSouth(p: GraphLabelPosition): int {
    match p
    case Top | TopLeft | TopRight => 1
    case Bottom | BottomLeft | BottomRight => -1
    case Left | Right => 0
  }

  predicate IsCorner(p: GraphLabelPosition) {
    p.TopLeft? || p.TopRight? || p.BottomLeft? || p.BottomRight?
  }

  /** `convenientPosition`: strict quadrants give the corners, the half-axes
      the edges, and the origin falls through to the top-right corner. */
  function ConvenientPosition(x: real, y: real): (p: GraphLabelPosition)
    ensures p == TopRight <==> (x > 0.0 && y > 0.0) || (x == 0.0 && y == 0.0)
    ensures p == TopLeft <==> x < 0.0 && y > 0.0
    ensures p == BottomRight <==> x > 0.0 && y < 0.0
    ensures p == BottomLeft <==> x < 0.0 && y < 0.0
    ensures p == Top <==> x == 0.0 && y > 0.0
    ensures p == Bottom <==> x == 0.0 && y < 0.0
    ensures p == Right <==> x > 0.0 && y == 0.0
    ensures p == Left <==> x < 0.0 && y == 0.0
  {
    if x > 0.0 && y > 0.0 then TopRight
    else if x < 0.0 && y > 0.0 then TopLeft
    else if x > 0.0 && y < 0.0 then BottomRight
    else if x < 0.0 && y < 0.0 then BottomLeft
    else if x == 0.0 && y > 0.0 then Top
    else if x == 0.0 && y < 0.0 then Bottom
    else if x > 0.0 && y == 0.0 then Right
    else if x < 0.0 && y == 0.0 then Left
    else TopRight
  }

  /** Away from the origin, the chosen direction points the way the point
      lies: its compass components are the signs of x and y. */
  lemma ConvenientPositionFollowsSigns(x: real, y: real)
    requires x != 0.0 || y != 0.0
    ensures EastWest(ConvenientPosition(x, y)) == Sign(x)
    ensures NorthSouth(ConvenientPosition(x, y)) == Sign(y)
    ensures IsCorner(ConvenientPosition(x, y)) <==> x != 0.0 && y != 0.0
  {
  }

  /** `labelPositionToOffset`: each compass component becomes `offset`
      pixels, north being negative screen y. */
  function LabelPositionToOffset(p: GraphLabelPosition, offset: real): (o: Offset)
    ensures o.xOffset == EastWest(p) as real * offset
    ensures o.yOffset == -(NorthSouth(p) as real) * offset
  {
    match p
    case Left => Offset(-offset, 0.0)
    case Right => Offset(offset, 0.0)
    case Top => Offset(0.0, -offset)
    case Bottom => Offset(0.0, offset)
    case TopLeft => Offset(-offset, -offset)
    case TopRight => Offset(offset, -offset)
    case BottomLeft => Offset(-offset, offset)
    case BottomRight => Offset(offset, offset)
  }

  /** Edge positions move along one axis, corners along both, always by the
      full offset. */
  lemma OffsetShape(p: GraphLabelPosition, offset: real)
    requires offset > 0.0
    ensures var o := LabelPositionToOffset(p, offset);
            if IsCorner(p) then (o.xOffset == offset || o.xOffset == -offset) && (o.yOffset == offset || o.yOffset == -offset)
            else (o.xOffset == 0.0) != (o.yOffset == 0.0) && (o.xOffset + o.yOffset == offset || o.xOffset + o.yOffset == -offset)
  {
  }

  /** For every point other than the origin, the label offset points away from
      the origin on screen: x keeps its sign, y (screen down) takes the
      opposite sign of the unit y. */
  lemma OffsetPointsAwayFromOrigin(x: real, y: real, offset: real)
    requires x != 0.0 || y != 0.0
    requires offset > 0.0
    ensures Sign(LabelPositionToOffset(ConvenientPosition(x, y), offset).xOffset) == Sign(x)
    ensures Sign(LabelPositionToOffset(ConvenientPosition(x, y), offset).yOffset) == -Sign(y)
  {
  }

  /** The point (-1, 2) gets a top-left label, 10 pixels left and 10 up. */
  lemma ScenarioTopLeft()
    ensures ConvenientPosition(-1.0, 2.0) == TopLeft
    ensures LabelPositionToOffset(TopLeft, 10.0) == Offset(-10.0, -10.0)
  {
  }
}

=== FILE: graph_units.dfy ===
/** The coordinate engine of the graph: units (the user's X, Y, R, y up),
    pixels (canvas-local, origin at the centre, y DOWN as on screen) and
    client coordinates (the viewport, as pointer events deliver them). */
module GraphUnits {
  import opened Optional
  import opened Numbers

  /** The pseudo-radius spans `1 / R_PX_MODIFIER` of the canvas' shorter side. */
  const R_PX_MODIFIER: real := 3.0

  /** Size of the canvas as last reported by the resize observer. */
  datatype Extent = Extent(width: real, height: real)

  /** A point in any of the three coordinate spaces. */
  datatype Point = Point(x: real, y: real)

  const Origin := Point(0.0, 0.0)

  /** The radius the drawing is scaled to: 1 while R is unset, R itself
      otherwise. R is not clamped, so 0 and negative values pass through. */
  function PseudoR(r: Option<real>): (p: real)
    ensures r.None? ==> p == 1.0
    ensures r.Some? ==> p == r.value
    ensures p == 0.0 <==> r == Some(0.0)
  {
    if r.None? then 1.0 else r.value
  }

  function ShortSide(e: Extent): (m: real)
    ensures m <= e.width && m <= e.height
    ensures m == e.width || m == e.height
  {
    if e.width <= e.height then e.width else e.height
  }

  /** Pixels per unit: the pseudo-radius covers a third of the shorter side. */
  function PxPerUnit(e: Extent, pseudoR: real): (s: real)
    requires pseudoR != 0.0
    ensures s * (R_PX_MODIFIER * pseudoR) == ShortSide(e)
  {
    ShortSide(e) / (R_PX_MODIFIER * pseudoR)
  }

  lemma PxPerUnitSign(e: Extent, pseudoR: real)
    requires pseudoR != 0.0
    ensures PxPerUnit(e, pseudoR) == 0.0 <==> ShortSide(e) == 0.0
    ensures ShortSide(e) > 0.0 ==>
              (PxPerUnit(e, pseudoR) > 0.0 <==> pseudoR > 0.0)
  {
  }

  /** `unitsToPx`: a length in units as a length in pixels. */
  function UnitsToPx(e: Extent, pseudoR: real, u: real): (px: real)
    requires pseudoR != 0.0
    ensures ShortSide(e) == 0.0 ==> px == 0.0
    ensures px * (R_PX_MODIFIER * pseudoR) == u * ShortSide(e)
  {
    u * PxPerUnit(e, pseudoR)
  }

  /** A positive scale keeps the sign of a length, a negative one (negative R)
      flips it. */
  lemma UnitsToPxSign(e: Extent, pseudoR: real, u: real)
    requires pseudoR != 0.0
    ensures PxPerUnit(e, pseudoR) > 0.0 ==> Sign(UnitsToPx(e, pseudoR, u)) == Sign(u)
    ensures PxPerUnit(e, pseudoR) < 0.0 ==> Sign(UnitsToPx(e, pseudoR, u)) == -Sign(u)
  {
  }

  /** `pxToUnits`: the inverse of `UnitsToPx`; undefined (division by zero)
      on an unmeasured canvas. */
  function PxToUnits(e: Extent, pseudoR: real, px: real): (u: real)
    requires pseudoR != 0.0 && ShortSide(e) != 0.0
    ensures UnitsToPx(e, pseudoR, u) == px
  {
    PxPerUnitSign(e, pseudoR);
    px / PxPerUnit(e, pseudoR)
  }

  lemma UnitsToPxToUnits(e: Extent, pseudoR: real, u: real)
    requires pseudoR != 0.0 && ShortSide(e) != 0.0
    ensures PxToUnits(e, pseudoR, UnitsToPx(e, pseudoR, u)) == u
  {
  }

  /** Units point to pixel point: scale both axes, flip y (units grow up,
      pixels grow down). */
  function UnitsPointToPxPoint(e: Extent, pseudoR: real, p: Point): (q: Point)
    requires pseudoR != 0.0
    ensures ShortSide(e) == 0.0 ==> q == Origin
    ensures q.x * (R_PX_MODIFIER * pseudoR) == p.x * ShortSide(e)
    ensures q.y * (R_PX_MODIFIER * pseudoR) == -p.y * ShortSide(e)
  {
    Point(UnitsToPx(e, pseudoR, p.x), -UnitsToPx(e, pseudoR, p.y))
  }

  /** With a positive scale a point keeps its x side and changes its y side
      (y points down on screen); a negative R mirrors both. */
  lemma UnitsPointToPxPointSign(e: Extent, pseudoR: real, p: Point)
    requires pseudoR != 0.0
    ensures var q := UnitsPointToPxPoint(e, pseudoR, p);
            PxPerUnit(e, pseudoR) > 0.0 ==> Sign(q.x) == Sign(p.x) && Sign(q.y) == -Sign(p.y)
    ensures var q := UnitsPointToPxPoint(e, pseudoR, p);
            PxPerUnit(e, pseudoR) < 0.0 ==> Sign(q.x) == -Sign(p.x) && Sign(q.y) == Sign(p.y)
  {
  }

  /** Pixel point to units point: the exact inverse of `UnitsPointToPxPoint`. */
  function PxPointToUnitsPoint(e: Extent, pseudoR: real, q: Point): (p: Point)
    requires pseudoR != 0.0 && ShortSide(e) != 0.0
    ensures UnitsPointToPxPoint(e, pseudoR, p) == q
  {
    Point(PxToUnits(e, pseudoR, q.x), -PxToUnits(e, pseudoR, q.y))
  }

  lemma UnitsPointRoundTrip(e: Extent, pseudoR: real, p: Point)
    requires pseudoR != 0.0 && ShortSide(e) != 0.0
    ensures PxPointToUnitsPoint(e, pseudoR, UnitsPointToPxPoint(e, pseudoR, p)) == p
  {
  }

  /** `pseudoRPx`: the pseudo-radius in pixels. Whatever (non-zero) R is, it
      is a third of the shorter side, so the drawn shape never changes size. */
  function PseudoRPx(e: Extent, r: Option<real>): (px: real)
    requires PseudoR(r) != 0.0
    ensures px * R_PX_MODIFIER == ShortSide(e)
  {
    UnitsToPx(e, PseudoR(r), PseudoR(r))
  }

  /** For a measured canvas and positive radii, a larger radius means fewer
      pixels per unit. */
  lemma ScaleDecreasesWithRadius(e: Extent, p1: real, p2: real)
    requires ShortSide(e) > 0.0 && 0.0 < p1 < p2
    ensures UnitsToPx(e, p2, 1.0) < UnitsToPx(e, p1, 1.0)
  {
    QuotientDecreases(ShortSide(e), R_PX_MODIFIER * p1, R_PX_MODIFIER * p2);
  }

  lemma QuotientDecreases(m: real, a: real, b: real)
    requires m > 0.0 && 0.0 < a < b
    ensures m / b < m / a
  {
  }

  /** `clientPointToPxPoint`: `canvas` is the origin of the canvas' bounding
      client rect, `None` while the canvas is not mounted (then the result is
      the origin). */
  function ClientPointToPxPoint(canvas: Option<Point>, e: Extent, c: Point): (q: Point)
    ensures canvas.None? ==> q == Origin
    ensures canvas.Some? ==> PxPointToClientPoint(canvas.value, e, q) == c
  {
    if canvas.None? then Origin
    else Point(c.x - canvas.value.x - e.width / 2.0, c.y - canvas.value.y - e.height / 2.0)
  }

  /** Where a canvas pixel lies in the viewport: the canvas' top-left corner
      plus half the extent (the drawing origin is the canvas centre). */
  function PxPointToClientPoint(canvasOrigin: Point, e: Extent, q: Point): Point {
    Point(q.x + canvasOrigin.x + e.width / 2.0, q.y + canvasOrigin.y + e.height / 2.0)
  }

  lemma ClientPointRoundTrip(canvasOrigin: Point, e: Extent, q: Point)
    ensures ClientPointToPxPoint(Some(canvasOrigin), e, PxPointToClientPoint(canvasOrigin, e, q)) == q
  {
  }

  /** A 300x300 canvas with R = 3 has 100/3 pixels per unit, so the unit
      point (1, 1) is drawn at (100/3, -100/3). */
  lemma ScenarioUnitsToPixels()
    ensures UnitsPointToPxPoint(Extent(300.0, 300.0), PseudoR(Some(3.0)), Point(1.0, 1.0))
            == Point(100.0 / 3.0, -100.0 / 3.0)
  {
  }

  /** A click at client (160, 140) on a 300x300 canvas whose rect starts at
      (10, 10), with R = 3, is pixel (0, -20) and unit point (0, 0.6). */
  lemma ScenarioClientToUnits()
    ensures ClientPointToPxPoint(Some(Point(10.0, 10.0)), Extent(300.0, 300.0), Point(160.0, 140.0))
            == Point(0.0, -20.0)
    ensures PxPointToUnitsPoint(Extent(300.0, 300.0), 3.0, Point(0.0, -20.0)) == Point(0.0, 0.6)
  {
  }
}

=== FILE: hit_history.dfy ===
/** The history table: sortable columns, and pages of `LIMIT` rows. */
module HitHistory {
  import opened Optional
  import opened Hits

  const LIMIT: nat := 20

  /** The sortable columns (the keys of a hit). */
  datatype SortKey = Id | X | Y | R | IsHit | CreatedAt

  /** `sortDirection`: 1 ascending, -1 descending. */
  type Direction = d: int | d == 1 || d == -1 witness 1

  /** The value a column compares by; `true > false` as in JavaScript. */
  function Key(h: Hit, k: SortKey): real {
    match k
    case Id => h.id as real
    case X => h.x
    case Y => h.y
    case R => h.r
    case IsHit => if h.isHit then 1.0 else 0.0
    case CreatedAt => h.createdAt as real
  }

  /** A hit's position in the requested order: smaller goes first. */
  function Rank(h: Hit, k: SortKey, dir: Direction): real {
    dir as real * Key(h, k)
  }

  /** The comparator of `sortedHits`: `dir` when a's key is greater, `-dir`
      when it is smaller, 0 for equal keys. A non-positive answer means a may
      go first in the requested order. */
  function Compare(a: Hit, b: Hit, k: SortKey, dir: Direction): (c: int)
    ensures c == 0 <==> Key(a, k) == Key(b, k)
    ensures c <= 0 <==> Rank(a, k, dir) <= Rank(b, k, dir)
  {
    if Key(a, k) > Key(b, k) then dir
    else if Key(a, k) < Key(b, k) then -(dir as int)
    else 0
  }

  lemma CompareAntisymmetric(a: Hit, b: Hit, k: SortKey, dir: Direction)
    ensures Compare(a, b, k, dir) == -Compare(b, a, k, dir)
  {
  }

  /** Ordered by rank: each hit may go before every later one. */
  ghost predicate Sorted(s: seq<Hit>, k: SortKey, dir: Direction) {
    forall i, j :: 0 <= i < j < |s| ==> Rank(s[i], k, dir) <= Rank(s[j], k, dir)
  }

  /** Insert `h` before the first element it does not compare after. */
  function Insert(h: Hit, s: seq<Hit>, k: SortKey, dir: Direction): (t: seq<Hit>)
    requires Sorted(s, k, dir)
    ensures Sorted(t, k, dir)
    ensures multiset(t) == multiset(s) + multiset{h}
  {
    if |s| == 0 then [h]
    else if Compare(h, s[0], k, dir) <= 0 then
      PrependSorted(h, s, k, dir);
      [h] + s
    else
      assert s == [s[0]] + s[1..];
      var rest := Insert(h, s[1..], k, dir);
      forall x | x in multiset(rest)
        ensures Rank(s[0], k, dir) <= Rank(x, k, dir)
      {
        if x != h {
          HeadRankBelow(s, k, dir, x);
        }
      }
      PrependSorted(s[0], rest, k, dir);
      [s[0]] + rest
  }

  /** The head of a sorted sequence ranks at most every later element. */
  lemma HeadRankBelow(s: seq<Hit>, k: SortKey, dir: Direction, x: Hit)
    requires Sorted(s, k, dir) && |s| > 0 && x in multiset(s[1..])
    ensures Rank(s[0], k, dir) <= Rank(x, k, dir)
  {
  }

  /** Prepending an element that ranks at most everything keeps the order. */
  lemma PrependSorted(h: Hit, s: seq<Hit>, k: SortKey, dir: Direction)
    requires Sorted(s, k, dir)
    requires forall x | x in multiset(s) :: Rank(h, k, dir) <= Rank(x, k, dir)
    ensures Sorted([h] + s, k, dir)
  {
  }

  /** Insertion sort by the comparator. */
  function SortBy(s: seq<Hit>, k: SortKey, dir: Direction): (t: seq<Hit>)
    ensures Sorted(t, k, dir)
    ensures multiset(t) == multiset(s)
  {
    if |s| == 0 then []
    else
      assert s == [s[0]] + s[1..];
      Insert(s[0], SortBy(s[1..], k, dir), k, dir)
  }

  /** The hits of `s` whose key is `v`, in order. */
  function KeyFilter(s: seq<Hit>, k: SortKey, v: real): seq<Hit> {
    if |s| == 0 then []
    else (if Key(s[0], k) == v then [s[0]] else []) + KeyFilter(s[1..], k, v)
  }

  /** Insertion places a hit before every hit with its key, and leaves the
      other keys' hits in place. */
  lemma {:induction false} InsertKeepsTies(h: Hit, s: seq<Hit>, k: SortKey, dir: Direction, v: real)
    requires Sorted(s, k, dir)
    ensures KeyFilter(Insert(h, s, k, dir), k, v) ==
              if Key(h, k) == v then [h] + KeyFilter(s, k, v) else KeyFilter(s, k, v)
  {
    if |s| == 0 {
      KeyFilterCons(h, [], k, v);
    } else if Compare(h, s[0], k, dir) <= 0 {
      KeyFilterCons(h, s, k, v);
    } else {
      assert Sorted(s[1..], k, dir);
      InsertKeepsTies(h, s[1..], k, dir, v);
      KeyFilterCons(s[0], Insert(h, s[1..], k, dir), k, v);
      KeyFilterCons(s[0], s[1..], k, v);
      assert s == [s[0]] + s[1..];
    }
  }

  lemma KeyFilterCons(x: Hit, rest: seq<Hit>, k: SortKey, v: real)
    ensures KeyFilter([x] + rest, k, v) == (if Key(x, k) == v then [x] else []) + KeyFilter(rest, k, v)
  {
    assert ([x] + rest)[1..] == rest;
  }

  /** The sort is stable: the hits sharing any one key keep their input order. */
  lemma {:induction false} SortByIsStable(s: seq<Hit>, k: SortKey, dir: Direction, v: real)
    ensures KeyFilter(SortBy(s, k, dir), k, v) == KeyFilter(s, k, v)
  {
    if |s| > 0 {
      SortByIsStable(s[1..], k, dir, v);
      InsertKeepsTies(s[0], SortBy(s[1..], k, dir), k, dir, v);
    }
  }

  /** `sortedHits`: the input order without a sort key; otherwise a stable
      permutation of the hits, ascending by the key for direction 1 and
      descending for -1. */
  function SortedHits(hits: seq<Hit>, key: Option<SortKey>, dir: Direction): (out: seq<Hit>)
    ensures key.None? ==> out == hits
    ensures multiset(out) == multiset(hits) && |out| == |hits|
    ensures key.Some? && dir == 1 ==>
              forall i, j :: 0 <= i < j < |out| ==> Key(out[i], key.value) <= Key(out[j], key.value)
    ensures key.Some? && dir == -1 ==>
              forall i, j :: 0 <= i < j < |out| ==> Key(out[i], key.value) >= Key(out[j], key.value)
    // like `Array.prototype.sort`, hits with equal keys keep their input order
    ensures key.Some? ==> forall v :: KeyFilter(out, key.value, v) == KeyFilter(hits, key.value, v)
  {
    if key.None? then hits
    else
      var out := SortBy(hits, key.value, dir);
      forall v ensures KeyFilter(out, key.value, v) == KeyFilter(hits, key.value, v) {
        SortByIsStable(hits, key.value, dir, v);
      }
      assert |out| == |multiset(out)| == |multiset(hits)| == |hits|;
      out
  }

  // ---------------------------------------------------------------------------
  // Column headers

  datatype SortState = SortState(key: Option<SortKey>, dir: Direction)

  const InitialSort := SortState(None, 1)

  /** A click on a header: the current column flips its direction, another
      column becomes the key, ascending. */
  function ClickHeader(s: SortState, col: SortKey): (t: SortState)
    ensures t.key == Some(col)
    ensures s.key == Some(col) ==> t.dir as int == -(s.dir as int)
    ensures s.key != Some(col) ==> t.dir == 1
  {
    if s.key == Some(col) then s.(dir := if s.dir == 1 then -1 else 1)
    else SortState(Some(col), 1)
  }

  /** Two clicks on the current column restore the order; two clicks on a
      new column sort by it descending. */
  lemma ClickHeaderTwice(s: SortState, col: SortKey)
    ensures ClickHeader(ClickHeader(s, col), col) ==
              if s.key == Some(col) then s else SortState(Some(col), -1)
  {
  }

  datatype Arrow = NoArrow | Up | Down

  /** The arrow in a header cell. */
  function Indicator(s: SortState, col: SortKey): (a: Arrow)
    ensures a == Up <==> s.key == Some(col) && s.dir == 1
    ensures a == Down <==> s.key == Some(col) && s.dir == -1
  {
    if s.key == Some(col) && s.dir == 1 then Up
    else if s.key == Some(col) && s.dir == -1 then Down
    else NoArrow
  }

  /** At most one header shows an arrow, and after a click it is the clicked one. */
  lemma OneArrow(s: SortState, c1: SortKey, c2: SortKey, col: SortKey)
    ensures Indicator(s, c1) != NoArrow && Indicator(s, c2) != NoArrow ==> c1 == c2
    ensures Indicator(ClickHeader(s, col), col) != NoArrow
  {
  }

  // ---------------------------------------------------------------------------
  // Pages

  /** `Math.ceil(n / LIMIT)`. */
  function TotalPages(n: nat): (t: nat)
    ensures t * LIMIT >= n
    ensures t > 0 ==> (t - 1) * LIMIT < n
  {
    (n + LIMIT - 1) / LIMIT
  }

  function Min(a: int, b: int): int {
    if a <= b then a else b
  }

  /** Where a (possibly negative) index of `Array.prototype.slice` lands in a
      sequence of length `len`: negative indices count from the end. */
  function SliceIndex(len: nat, i: int): (k: nat)
    ensures k <= len
    ensures i >= 0 ==> k == Min(i, len)
  {
    if i < 0 then (if len + i < 0 then 0 else len + i) else Min(i, len)
  }

  /** `s.slice(start, end)`. */
  function JsSlice<T>(s: seq<T>, start: int, end: int): seq<T> {
    var a, b := SliceIndex(|s|, start), SliceIndex(|s|, end);
    if a < b then s[a..b] else []
  }

  /** The rows of page `page`: rows `(page-1)*LIMIT` up to `page*LIMIT`, at
      most `LIMIT` of them; page 0 is empty. */
  function PageRows<T>(rows: seq<T>, page: int): (t: seq<T>)
    ensures |t| <= LIMIT
    ensures page >= 1 ==> t == rows[Min((page - 1) * LIMIT, |rows|)..Min(page * LIMIT, |rows|)]
    ensures page == 0 ==> t == []
  {
    JsSlice(rows, (page - 1) * LIMIT, page * LIMIT)
  }

  /** Pages 1 to `p` one after another. */
  function Pages<T>(rows: seq<T>, p: nat): seq<T> {
    if p == 0 then [] else Pages(rows, p - 1) + PageRows(rows, p)
  }

  lemma {:induction false} PagesArePrefix<T>(rows: seq<T>, p: nat)
    ensures Pages(rows, p) == rows[..Min(p * LIMIT, |rows|)]
  {
    if p > 0 {
      PagesArePrefix(rows, p - 1);
      assert rows[..Min((p - 1) * LIMIT, |rows|)] + rows[Min((p - 1) * LIMIT, |rows|)..Min(p * LIMIT, |rows|)]
             == rows[..Min(p * LIMIT, |rows|)];
    }
  }

  /** Pages 1 to `TotalPages` show every row exactly once, in order. */
  lemma PagesPartitionRows<T>(rows: seq<T>)
    ensures Pages(rows, TotalPages(|rows|)) == rows
  {
    PagesArePrefix(rows, TotalPages(|rows|));
  }

  /** A page between 1 and the page count holds at least one row. */
  lemma PageInRangeIsNonEmpty<T>(rows: seq<T>, page: int)
    requires 1 <= page <= TotalPages(|rows|)
    ensures |PageRows(rows, page)| > 0
  {
  }

  // ---------------------------------------------------------------------------
  // The table

  datatype Row = HitRow(hit: Hit) | EmptyRow

  /** What the history shows: whether the paginators are shown and with how
      many pages, and the table body. */
  datatype HistoryView = HistoryView(showPaginator: bool, totalPages: nat, rows: seq<Row>)

  function View(hits: seq<Hit>, s: SortState, page: int): (v: HistoryView)
    ensures |hits| == 0 ==> v == HistoryView(false, 0, [EmptyRow])
    ensures |hits| > 0 ==> v.showPaginator && v.totalPages >= 1 && |v.rows| <= LIMIT
    ensures |hits| > 0 ==> forall i :: 0 <= i < |v.rows| ==> v.rows[i].HitRow? && v.rows[i].hit in multiset(hits)
    // the paginator counts the pages of the whole history
    ensures |hits| > 0 ==> v.totalPages == TotalPages(|hits|)
    // the body is the current page of the sorted hits, one row per hit
    ensures |hits| > 0 ==>
              var shown := PageRows(SortedHits(hits, s.key, s.dir), page);
              |v.rows| == |shown| && forall i :: 0 <= i < |shown| ==> v.rows[i] == HitRow(shown[i])
    // a page within range is never blank
    ensures |hits| > 0 && 1 <= page <= TotalPages(|hits|) ==> |v.rows| > 0
  {
    var sorted := SortedHits(hits, s.key, s.dir);
    var shown := PageRows(sorted, page);
    var body := seq(|shown|, i requires 0 <= i < |shown| => HitRow(shown[i]));
    assert 1 <= page <= TotalPages(|hits|) ==> |shown| > 0 by {
      if 1 <= page <= TotalPages(|hits|) {
        PageInRangeIsNonEmpty(sorted, page);
      }
    }
    assert forall i :: 0 <= i < |shown| ==> shown[i] in multiset(hits) by {
      forall i | 0 <= i < |shown| ensures shown[i] in multiset(hits) {
        assert shown[i] in sorted;
      }
    }
    HistoryView(|hits| > 0, TotalPages(|hits|), body + (if |hits| == 0 then [EmptyRow] else []))
  }

  /** Before any header is clicked, the first page lists the first `LIMIT`
      hits in the order they arrived. */
  lemma FirstRenderInArrivalOrder(hits: seq<Hit>)
    ensures |hits| == 0 ==> View(hits, InitialSort, 1).rows == [EmptyRow]
    ensures |hits| > 0 ==>
              var v := View(hits, InitialSort, 1);
              |v.rows| == Min(LIMIT, |hits|) && forall i :: 0 <= i < |v.rows| ==> v.rows[i] == HitRow(hits[i])
  {
  }
}

=== FILE: paginator.dfy ===
/** The pagination bar: Prev, one item per page, Next, and the effect that
    pulls the page back when the number of pages shrinks. */
module Paginator {
  import opened Optional

  /** The clamp effect: a page beyond the last becomes the last; otherwise
      the page is kept. It only ever lowers the page. */
  function ClampPage(page: int, totalPages: int): (p: int)
    ensures p <= page && p <= totalPages
    ensures p == page || p == totalPages
  {
    if totalPages < page then totalPages else page
  }

  predicate PrevDisabled(page: int) {
    page == 1
  }

  predicate NextDisabled(page: int, totalPages: int) {
    page == totalPages
  }

  /** One rendered page item. */
  datatype ItemView = ItemView(number: int, active: bool)

  /** The items, numbered from 1; the one for the current page is active. */
  function Items(page: int, totalPages: nat): (items: seq<ItemView>)
    ensures |items| == totalPages
    ensures forall i :: 0 <= i < totalPages ==> items[i].number == i + 1
    ensures forall i :: 0 <= i < totalPages ==> (items[i].active <==> items[i].number == page)
  {
    seq(totalPages, i requires 0 <= i < totalPages => ItemView(i + 1, i + 1 == page))
  }

  /** On a page within range exactly one item is active (and none otherwise). */
  lemma ExactlyOneActive(page: int, totalPages: nat)
    ensures 1 <= page <= totalPages ==>
              Items(page, totalPages)[page - 1].active
              && forall i :: 0 <= i < totalPages && Items(page, totalPages)[i].active ==> i == page - 1
    ensures !(1 <= page <= totalPages) ==> forall i :: 0 <= i < totalPages ==> !Items(page, totalPages)[i].active
  {
  }

  /** A click on the bar. */
  datatype Control = Prev | Next | Item(number: int)

  /** The page a click asks for; `None` when the control is disabled and so
      does not fire. */
  function Press(page: int, totalPages: int, c: Control): (p: Option<int>)
    ensures c.Prev? ==> (p.None? <==> PrevDisabled(page)) && (p.Some? ==> p.value == page - 1)
    ensures c.Next? ==> (p.None? <==> NextDisabled(page, totalPages)) && (p.Some? ==> p.value == page + 1)
    ensures c.Item? ==> p == Some(c.number)
  {
    match c
    case Prev => if PrevDisabled(page) then None else Some(page - 1)
    case Next => if NextDisabled(page, totalPages) then None else Some(page + 1)
    case Item(n) => Some(n)
  }

  /** A control that is actually on the bar. */
  predicate Rendered(c: Control, totalPages: int) {
    c.Item? ==> 1 <= c.number <= totalPages
  }

  /** From a page in range, every enabled control leads to a page in range. */
  lemma PressStaysInRange(page: int, totalPages: int, c: Control)
    requires 1 <= page <= totalPages && Rendered(c, totalPages)
    ensures var p := Press(page, totalPages, c);
            p.Some? ==> 1 <= p.value <= totalPages
  {
  }

  /** What happens to the page of a history: a click on the bar, or the bar
      being rendered (and its clamp effect run) for some number of pages. */
  datatype PageEvent = Click(totalPages: int, control: Control) | Render(totalPages: int)

  function PageStep(page: int, ev: PageEvent): int {
    match ev
    case Click(t, c) => (var p := Press(page, t, c); if p.Some? then p.value else page)
    case Render(t) => ClampPage(page, t)
  }

  function PageAfter(page: int, events: seq<PageEvent>): int {
    if |events| == 0 then page else PageStep(PageAfter(page, events[..|events| - 1]), events[|events| - 1])
  }

  /** The bar is only shown for a non-empty history, so every event carries
      at least one page, and only rendered items can be clicked. */
  ghost predicate Feasible(events: seq<PageEvent>) {
    forall k :: 0 <= k < |events| ==>
      events[k].totalPages >= 1 && (events[k].Click? ==> Rendered(events[k].control, events[k].totalPages))
  }

  /** Starting from page 1, the page never drops below 1, and right after a
      render it is within the rendered number of pages. */
  lemma {:induction false} PageStaysPositive(events: seq<PageEvent>)
    requires Feasible(events)
    ensures PageAfter(1, events) >= 1
    ensures |events| > 0 && events[|events| - 1].Render? ==>
              PageAfter(1, events) <= events[|events| - 1].totalPages
  {
    if |events| > 0 {
      var init := events[..|events| - 1];
      assert Feasible(init) by {
        forall k | 0 <= k < |init|
          ensures init[k].totalPages >= 1 && (init[k].Click? ==> Rendered(init[k].control, init[k].totalPages))
        {
          assert init[k] == events[k];
        }
      }
      PageStaysPositive(init);
    }
  }
}

=== FILE: query_error.dfy ===
/** `rtkQueryHookErrorToString`: the one-line text shown for a failed
    request. An error with a status gives `Error <status>: <data>`, one with
    only a message gives `Error: <message>`, anything else `unknown error`. */
module QueryError {
  import opened Optional

  /** A status: an HTTP code, or a named failure such as `FETCH_ERROR`. */
  datatype Status = Code(code: int) | Named(name: string)

  /** The response body: a string, or any other JavaScript value (including
      `undefined` for a missing body), which `JSON.stringify` renders. */
  datatype Payload<V> = Text(text: string) | Other(value: V)

  /** An RTK Query error: `status` and `message` are present or absent keys. */
  datatype RequestError<V> = RequestError(status: Option<Status>, data: Payload<V>, message: Option<string>)

  // ---------------------------------------------------------------------------
  // Decimal text of a number (template-literal conversion of an integer)

  predicate IsDigit(c: char) {
    '0' <= c <= '9'
  }

  predicate AllDigits(s: string) {
    forall i :: 0 <= i < |s| ==> IsDigit(s[i])
  }

  function DigitChar(d: nat): (c: char)
    requires d < 10
    ensures IsDigit(c) && c as int - '0' as int == d
  {
    ('0' as int + d) as char
  }

  /** Decimal digits of `n`, without leading zeros. */
  function NatToString(n: nat): (s: string)
    ensures |s| > 0 && AllDigits(s)
    ensures s[0] == '0' ==> n == 0
  {
    if n < 10 then [DigitChar(n)] else NatToString(n / 10) + [DigitChar(n % 10)]
  }

  /** The value of a string of decimal digits. */
  function ParseNat(s: string): nat
    requires AllDigits(s)
  {
    if |s| == 0 then 0 else ParseNat(s[..|s| - 1]) * 10 + (s[|s| - 1] as int - '0' as int)
  }

  lemma {:induction false} ParseNatToString(n: nat)
    ensures ParseNat(NatToString(n)) == n
  {
    if n >= 10 {
      var s := NatToString(n);
      assert s[..|s| - 1] == NatToString(n / 10);
      ParseNatToString(n / 10);
    }
  }

  /** JavaScript's decimal text of an integer. */
  function IntToString(i: int): (s: string)
    ensures i >= 0 ==> s == NatToString(i)
    ensures i < 0 ==> s == "-" + NatToString(-i)
  {
    if i < 0 then "-" + NatToString(-i) else NatToString(i)
  }

  function StatusText(st: Status): string {
    match st
    case Code(n) => IntToString(n)
    case Named(name) => name
  }

  /** The body text: a string verbatim, anything else through `stringify`
      (`JSON.stringify(data, null, 2)`, not modelled). */
  function DataText<V>(d: Payload<V>, stringify: V -> string): string {
    match d
    case Text(t) => t
    case Other(v) => stringify(v)
  }

  // ---------------------------------------------------------------------------
  // The formatter

  /** `rtkQueryHookErrorToString`; a status wins over a message. */
  function ErrorToString<V>(e: RequestError<V>, stringify: V -> string): (s: string)
    ensures e.status.Some? ==>
              |s| >= 8 + |DataText(e.data, stringify)| && s[..6] == "Error " && s[|s| - |DataText(e.data, stringify)|..] == DataText(e.data, stringify)
    ensures e.status.None? && e.message.Some? ==> s == "Error: " + e.message.value
    ensures e.status.None? && e.message.None? ==> s == "unknown error"
  {
    if e.status.Some? then
      var body := DataText(e.data, stringify);
      var s := "Error " + StatusText(e.status.value) + ": " + body;
      assert s[|s| - |body|..] == body;
      s
    else if e.message.Some? then "Error: " + e.message.value
    else "unknown error"
  }

  /** Which branch produced a text, read back from the text alone. */
  datatype Branch = StatusBranch | MessageBranch(message: string) | UnknownBranch | NotAnErrorText

  function ReadBranch(s: string): Branch {
    if s == "unknown error" then UnknownBranch
    else if |s| >= 7 && s[..7] == "Error: " then MessageBranch(s[7..])
    else if |s| >= 6 && s[..6] == "Error " then StatusBranch
    else NotAnErrorText
  }

  /** The three branches give distinguishable texts: the branch, and the
      message of a message-only error, can be read back. */
  lemma {:induction false} BranchIsReadable<V>(e: RequestError<V>, stringify: V -> string)
    ensures ReadBranch(ErrorToString(e, stringify)) ==
              if e.status.Some? then StatusBranch
              else if e.message.Some? then MessageBranch(e.message.value)
              else UnknownBranch
  {
    var s := ErrorToString(e, stringify);
    if e.status.Some? {
      assert s[5] == s[..6][5] == ' ';
      assert s != "unknown error" by { assert "unknown error"[0] != s[..6][0]; }
    } else if e.message.Some? {
      assert s[..7] == "Error: ";
      assert s != "unknown error" by { assert "unknown error"[0] != s[..7][0]; }
    }
  }

  /** The leading digits of a string. */
  function DigitPrefix(s: string): (d: string)
    ensures AllDigits(d) && d <= s
  {
    if |s| == 0 || !IsDigit(s[0]) then "" else [s[0]] + DigitPrefix(s[1..])
  }

  lemma {:induction false} DigitPrefixOfDigits(d: string, rest: string)
    requires AllDigits(d) && |rest| > 0 && !IsDigit(rest[0])
    ensures DigitPrefix(d + rest) == d
  {
    if |d| > 0 {
      assert (d + rest)[1..] == d[1..] + rest;
      DigitPrefixOfDigits(d[1..], rest);
    } else {
      assert d + rest == rest;
    }
  }

  /** The numeric status written in a status-branch text. */
  function ReadStatusCode(s: string): Option<int> {
    if |s| < 6 || s[..6] != "Error " then None else ReadSignedCode(s[6..])
  }

  /** A decimal integer, with a leading '-' when negative, ended by ':'. */
  function ReadSignedCode(t: string): Option<int> {
    if |t| > 0 && t[0] == '-' then
      match ReadNatCode(t[1..])
      case Some(n) => Some(-(n as int))
      case None => None
    else
      match ReadNatCode(t)
      case Some(n) => Some(n as int)
      case None => None
  }

  /** Decimal digits ended by ':'. */
  function ReadNatCode(u: string): Option<nat> {
    var d := DigitPrefix(u);
    if |d| > 0 && |u| > |d| && u[|d|] == ':' then Some(ParseNat(d)) else None
  }

  /** A numeric status, negative ones included, can be read back from the text. */
  lemma StatusCodeIsReadable<V>(e: RequestError<V>, stringify: V -> string)
    requires e.status.Some? && e.status.value.Code?
    ensures ReadStatusCode(ErrorToString(e, stringify)) == Some(e.status.value.code)
  {
    var code, body := e.status.value.code, DataText(e.data, stringify);
    var t := IntToString(code) + (": " + body);
    var s := ErrorToString(e, stringify);
    assert s == "Error " + t;
    assert s[..6] == "Error " && s[6..] == t;
    SignedCodeIsReadable(code, ": " + body);
  }

  /** The text of `code` followed by ':' reads back as `code`. */
  lemma SignedCodeIsReadable(code: int, rest: string)
    requires |rest| > 0 && rest[0] == ':'
    ensures ReadSignedCode(IntToString(code) + rest) == Some(code)
  {
    var n: nat := if code < 0 then -code else code;
    var d := NatToString(n);
    NatCodeIsReadable(n, rest);
    if code < 0 {
      assert IntToString(code) + rest == "-" + (d + rest);
      MinusThenNatCode(d + rest, n);
    } else {
      assert (d + rest)[0] == d[0];
      UnsignedNatCode(d + rest, n);
    }
  }

  lemma MinusThenNatCode(u: string, n: nat)
    requires ReadNatCode(u) == Some(n)
    ensures ReadSignedCode("-" + u) == Some(-(n as int))
  {
  }

  lemma UnsignedNatCode(u: string, n: nat)
    requires ReadNatCode(u) == Some(n) && |u| > 0 && u[0] != '-'
    ensures ReadSignedCode(u) == Some(n)
  {
  }

  /** The digits of `n` followed by ':' read back as `n`. */
  lemma NatCodeIsReadable(n: nat, rest: string)
    requires |rest| > 0 && rest[0] == ':'
    ensures ReadNatCode(NatToString(n) + rest) == Some(n)
  {
    var d := NatToString(n);
    DigitPrefixOfDigits(d, rest);
    assert (d + rest)[|d|] == rest[0];
    ParseNatToString(n);
  }

  // ---------------------------------------------------------------------------
  // Reading a status-branch text back

  /** The index of the first ':' of `s`, or `|s|` when there is none. */
  function FirstColon(s: string): (i: nat)
    ensures i <= |s|
    ensures forall j :: 0 <= j < i ==> s[j] != ':'
    ensures i < |s| ==> s[i] == ':'
  {
    if |s| == 0 || s[0] == ':' then 0 else 1 + FirstColon(s[1..])
  }

  lemma {:induction false} FirstColonAfter(a: string, b: string)
    requires ':' !in a && |b| > 0 && b[0] == ':'
    ensures FirstColon(a + b) == |a|
  {
    if |a| > 0 {
      assert (a + b)[1..] == a[1..] + b;
      FirstColonAfter(a[1..], b);
    }
  }

  /** The status text and the body text of `Error <status>: <data>`: the
      status ends at the first ':', which a ' ' follows. */
  function ReadStatusAndData(s: string): Option<(string, string)> {
    if |s| < 6 || s[..6] != "Error " then None
    else
      var t := s[6..];
      var i := FirstColon(t);
      if i + 2 <= |t| && t[i..i + 2] == ": " then Some((t[..i], t[i + 2..])) else None
  }

  /** The status text and the body can be read back from the text whenever
      the status text has no ':' (every numeric status, and the named ones). */
  lemma StatusAndDataAreReadable<V>(e: RequestError<V>, stringify: V -> string)
    requires e.status.Some? && ':' !in StatusText(e.status.value)
    ensures ReadStatusAndData(ErrorToString(e, stringify)) ==
              Some((StatusText(e.status.value), DataText(e.data, stringify)))
  {
    var st, body := StatusText(e.status.value), DataText(e.data, stringify);
    var s := ErrorToString(e, stringify);
    assert s == "Error " + st + ": " + body;
    var t := s[6..];
    assert t == st + (": " + body);
    FirstColonAfter(st, ": " + body);
    assert t[..|st|] == st;
    assert t[|st|..|st| + 2] == ": ";
    assert t[|st| + 2..] == body;
  }

  /** A numeric status is written as digits with an optional sign, so it
      never contains ':'. */
  lemma CodeTextHasNoColon(n: int)
    ensures ':' !in StatusText(Code(n))
  {
    var d := NatToString(if n < 0 then -n else n);
    assert forall i :: 0 <= i < |d| ==> d[i] != ':';
  }

  /** The status-branch text of a `FETCH_ERROR` with a plain text body. */
  lemma ScenarioFetchError()
    ensures var e: RequestError<int> := RequestError(Some(Named("FETCH_ERROR")), Text("offline"), None);
            ErrorToString(e, (x: int) => "") == "Error FETCH_ERROR: offline"
  {
  }
}
